=== FILE: README.md ===
# Unscramble game and money notes, in Dafny

This project models two of the apps in the Tugas-PPB Android coursework
repository and proves properties of them.

- **The word-unscramble game** (`GameViewModel.kt`). Picking an unused word,
  scrambling it, resetting, checking a guess, skipping, reshuffling and the
  advance/game-over step. The source keeps the current word and the used-word
  set in file-level variables and the `GameUiState` record in a state flow. Here
  all of it is one immutable `Game` value, and every operation is a pure
  function from the old game to the new one.
  - `shuffle.dfy` (module `Shuffle`): the Fisher-Yates shuffle and the
    retry loop of `shuffleCurrentWord`.
  - `unscramble.dfy` (module `Unscramble`): the view model's operations.
  - `game_invariants.dfy` (module `GameInvariants`): what holds across any
    run of player actions.
- **The money-notes transaction logic** (`ETS/.../mymoneynotes/MainActivity.kt`).
  The amount field's input filter, the save-time validation that builds a
  `Transaction`, the per-type total, the per-category pie slices, the
  newest-first listings, the cached category colours and the slice selection.
  The source computes these inside Compose lambdas; here each is a pure
  function or a method.
  - `transactions.dfy` (module `Transactions`): the records, the amount
    field, the parse and the save.
  - `chart.dfy` (module `Chart`): the dashboard.
- `wrappers.dfy` (module `Wrappers`) holds `Option` and `Result`.

Randomness is a parameter. A game transition that picks a word takes a `Draw`:
the unused word and its scramble. `LegalDraw` says which draws the source can
make. The random procedures themselves are modelled on explicit streams of
random numbers:

- `PickRandomWord` reads the indices that `allWords.random()` returns.
- `FisherYates` reads the positions that `CharArray.shuffle()` draws.
- `RetryShuffle` reads one such draw sequence per shuffle.

A result of `None` means the stream ran out while the source would still be
drawing. These streams show when the source's loops can end:

- `PickTerminationIff`: the pick ends exactly when some word is unused.
- `ShuffleTerminationIff`: the scramble loop ends exactly when the word has two
  different characters.

Kotlin `Int` arithmetic on the score and the word count wraps around at 32
bits, and `Wrap32` models that explicitly. Amounts are reals, dates are day
numbers and ids are naturals.

## Model

| member | source | states |
|---|---|---|
| Shuffle.FisherYates | app/src/main/java/com/example/unscramble/ui/GameViewModel.kt:20-21 | one `shuffle()` of the character array, whatever is drawn, keeps the length and the multiset of characters |
| Shuffle.RetryShuffle | app/src/main/java/com/example/unscramble/ui/GameViewModel.kt:22-25 | a word the retry loop returns has the word's characters and differs from the word; with no draws left there is no result |
| Shuffle.RetryFromWord | app/src/main/java/com/example/unscramble/ui/GameViewModel.kt:19-25 | retrying from the word itself finds nothing exactly when every draw's shuffle leaves the word unchanged; otherwise it returns the shuffle of the first draw that changes the word |
| Shuffle.ShuffleCurrentWord | app/src/main/java/com/example/unscramble/ui/GameViewModel.kt:19-26 | the returned word is a scramble: the same multiset of characters, in a different order; there is none exactly when every draw's shuffle leaves the word unchanged, and otherwise it is the shuffle of the first draw that changes the word |
| Shuffle.UniformWordIsFixed | app/src/main/java/com/example/unscramble/ui/GameViewModel.kt:20-22 | a word whose characters are all equal comes back unchanged from every shuffle |
| Shuffle.RetryNeverEndsOnUniformWord | app/src/main/java/com/example/unscramble/ui/GameViewModel.kt:22-24 | on such a word the `while` loop never ends, whatever the draws |
| Shuffle.ShuffleCanChangeWord | app/src/main/java/com/example/unscramble/ui/GameViewModel.kt:21-22 | a word with two different characters has a valid draw sequence whose shuffle differs from it |
| Shuffle.ShuffleTerminationIff | app/src/main/java/com/example/unscramble/ui/GameViewModel.kt:19-26 | some sequence of draws ends the loop exactly when the word has two different characters |
| Unscramble.Wrap32 | app/src/main/java/com/example/unscramble/ui/GameViewModel.kt:89 | Kotlin `Int` arithmetic: the result is a 32-bit value congruent to the exact one modulo 2^32, and equal to it when no overflow happens |
| Unscramble.EqualsIgnoreCaseIffSameLowerCase | app/src/main/java/com/example/unscramble/ui/GameViewModel.kt:101 | `equals(ignoreCase = true)` holds exactly when the two lower-case forms are equal |
| Unscramble.PickRandomWord | app/src/main/java/com/example/unscramble/ui/GameViewModel.kt:28-31 | the picked word is the word at the first drawn index whose word is unused, so it is in the list and unused; there is no pick exactly when every drawn index hits a used word |
| Unscramble.PickTerminationIff | app/src/main/java/com/example/unscramble/ui/GameViewModel.kt:28-36 | the recursion can end exactly when some word of the list is unused |
| Unscramble.RandomProceduresYieldLegalDraw | app/src/main/java/com/example/unscramble/ui/GameViewModel.kt:28-36 | a word from the pick recursion with a scramble from the retry loop is a draw the game transitions accept |
| Unscramble.PickRandomWordAndShuffle | app/src/main/java/com/example/unscramble/ui/GameViewModel.kt:28-36 | the new current word comes from the list and was not used; the used set grows by exactly that word; the returned text is a scramble of it |
| Unscramble.ResetGame | app/src/main/java/com/example/unscramble/ui/GameViewModel.kt:57-60 | after a reset the used set holds only the new word; word count 1, score 0, both flags false; the shown text scrambles the new word; the guess is untouched |
| Unscramble.NewGame | app/src/main/java/com/example/unscramble/ui/GameViewModel.kt:48-55 | a new view model starts with an empty guess and the reset state |
| Unscramble.UpdateUserGuess | app/src/main/java/com/example/unscramble/ui/GameViewModel.kt:62-64 | the guess becomes the typed text and nothing else changes |
| Unscramble.UpdateScore | app/src/main/java/com/example/unscramble/ui/GameViewModel.kt:66-72 | the score becomes the given value and every other field is kept |
| Unscramble.UpdateGameState | app/src/main/java/com/example/unscramble/ui/GameViewModel.kt:74-93 | at the last word: game over with the new score, with word count, scramble and words unchanged; otherwise: one new word from the list that was unused, the count up by one (32-bit), the flag cleared |
| Unscramble.SkipWord | app/src/main/java/com/example/unscramble/ui/GameViewModel.kt:95-98 | skipping keeps the score, clears the guess and the wrong-guess flag; at the last word it ends the game with count, word, scramble and used words unchanged; otherwise the count goes up by one (Int wrap-around), a word from the list not used before becomes current, joins the used words, and is shown scrambled |
| Unscramble.CheckUserGuess | app/src/main/java/com/example/unscramble/ui/GameViewModel.kt:100-110 | a case-insensitive match adds exactly the bonus and then, at the last word, ends the game with count, scramble and words unchanged, or otherwise uses one new unused word from the list, shown scrambled with the count up by one (32-bit); a miss sets the wrong-guess flag and changes nothing else; the guess ends empty either way |
| Unscramble.Reshuffle | app/src/main/java/com/example/unscramble/ui/GameViewModel.kt:112-118 | the score drops by exactly the penalty with no lower clamp; the new text scrambles the current word; count and used words are unchanged |
| Unscramble.SkipIsCorrectGuessWithoutBonus | app/src/main/java/com/example/unscramble/ui/GameViewModel.kt:95-110 | for a correct guess, checking the guess yields the same game as skipping except that the score includes the bonus |
| GameInvariants.Step | app/src/main/java/com/example/unscramble/ui/GameViewModel.kt:57-118 | a direct `updateScore` sets the score to the given value; any other action leaves it at 0, unchanged, plus the bonus, or minus the penalty (each with 32-bit wrap-around) |
| GameInvariants.NewGameEstablishesInv | app/src/main/java/com/example/unscramble/ui/GameViewModel.kt:53-60 | a new game satisfies the invariant: count equals used words, within the game length, current word used and scrambled on screen |
| GameInvariants.StepPreservesInv | app/src/main/java/com/example/unscramble/ui/GameViewModel.kt:57-118 | every public operation the source can carry out, `updateScore` with any 32-bit value included, preserves that invariant |
| GameInvariants.RunPreservesInv | app/src/main/java/com/example/unscramble/ui/GameViewModel.kt:57-118 | the invariant holds after any sequence of operations |
| GameInvariants.WordCountTracksUsedWords | app/src/main/java/com/example/unscramble/ui/GameViewModel.kt:74-93 | from a new game, the word count always equals the number of used words and never exceeds the game length |
| GameInvariants.GameOverIsFinalForWords | app/src/main/java/com/example/unscramble/ui/GameViewModel.kt:75-82 | once the game is over, guessing and skipping keep it over and change neither the word nor the count |
| Transactions.AllDigitsOrPoints | ETS/app/src/main/java/com/example/mymoneynotes/MainActivity.kt:335 | `all { isDigit() or '.' }` holds exactly when every character is a digit or a point |
| Transactions.CountAtMostOneIff | ETS/app/src/main/java/com/example/mymoneynotes/MainActivity.kt:335 | `count { it == '.' } <= 1` holds exactly when no two positions hold a point |
| Transactions.OnAmountChange | ETS/app/src/main/java/com/example/mymoneynotes/MainActivity.kt:334-338 | a new text made of digits with at most one point replaces the field; any other text leaves the old one |
| Transactions.AmountFieldStaysAmountText | ETS/app/src/main/java/com/example/mymoneynotes/MainActivity.kt:333-338 | after any sequence of edits the field still holds digits with at most one point |
| Transactions.ParseAmount | ETS/app/src/main/java/com/example/mymoneynotes/MainActivity.kt:364 | on the field's text, `toDoubleOrNull` gives a value exactly when some digit is present, and the value is never negative |
| Transactions.ParseAmountValue | ETS/app/src/main/java/com/example/mymoneynotes/MainActivity.kt:364 | the parsed value times ten to the number of digits after the point equals the digit string read without the point, so "12.5" gives 12.5 |
| Transactions.DigitsValueAppend | ETS/app/src/main/java/com/example/mymoneynotes/MainActivity.kt:364 | the value of two digit strings joined is the first shifted left by the length of the second, plus the second |
| Transactions.ParsedAmountPositiveIff | ETS/app/src/main/java/com/example/mymoneynotes/MainActivity.kt:364-365 | a parsed amount is positive exactly when the text has a non-zero digit |
| Transactions.IsBlank | ETS/app/src/main/java/com/example/mymoneynotes/MainActivity.kt:367 | `isBlank()` holds exactly when every character is whitespace (the JVM's whitespace set, written out in `IsWhitespace`), so the empty text is blank |
| Transactions.SaveTransaction | ETS/app/src/main/java/com/example/mymoneynotes/MainActivity.kt:363-379 | "invalid amount" exactly when the parse fails or is not positive; "missing category" exactly when the amount is fine and the category is blank; otherwise the transaction carries the id, type, category, parsed amount and date, with a blank description stored as absent |
| Transactions.SaveSucceedsIff | ETS/app/src/main/java/com/example/mymoneynotes/MainActivity.kt:364-370 | for text the field can hold, saving succeeds exactly when the text has a non-zero digit and the category is not blank |
| Chart.WhereCounts | ETS/app/src/main/java/com/example/mymoneynotes/MainActivity.kt:395 | `filter` keeps each satisfying element as often as it occurs and drops every other |
| Chart.AddTransaction | ETS/app/src/main/java/com/example/mymoneynotes/MainActivity.kt:176-178 | a saved transaction is appended and the earlier ones are kept in order |
| Chart.OverallTotal | ETS/app/src/main/java/com/example/mymoneynotes/MainActivity.kt:395-396 | the chart total equals the amounts of the selected type added up one by one over the whole list, every other transaction adding nothing |
| Chart.TotalAfterAdd | ETS/app/src/main/java/com/example/mymoneynotes/MainActivity.kt:395-396 | adding a transaction raises its own type's total by its amount and leaves the other type's total alone |
| Chart.TotalsPartition | ETS/app/src/main/java/com/example/mymoneynotes/MainActivity.kt:395-396 | the spending and income totals add up to the sum of all amounts |
| Chart.CategoriesOfIff | ETS/app/src/main/java/com/example/mymoneynotes/MainActivity.kt:399 | a category has a group exactly when some filtered transaction carries it |
| Chart.CategorySumPositive | ETS/app/src/main/java/com/example/mymoneynotes/MainActivity.kt:400-403 | with positive amounts, every category that occurs has a positive sum, so the `> 0` filter drops none |
| Chart.CategorySumAtMostTotal | ETS/app/src/main/java/com/example/mymoneynotes/MainActivity.kt:396-402 | with non-negative amounts, a category's sum lies between 0 and the total |
| Chart.GroupSumsByCategory | ETS/app/src/main/java/com/example/mymoneynotes/MainActivity.kt:398-402 | `groupBy` then `mapValues { sum }`: distinct keys, one per category present, in order of first appearance, each with its category's sum, and the sums add up to the total |
| Chart.GetColorForCategory | ETS/app/src/main/java/com/example/mymoneynotes/MainActivity.kt:595-601 | `getOrPut`: a cached colour is returned as is; otherwise the table entry or the fallback grey is stored and returned |
| Chart.ColorLookupRepeats | ETS/app/src/main/java/com/example/mymoneynotes/MainActivity.kt:597-601 | a second lookup of the same category returns the same colour and leaves the cache as it was |
| Chart.SlicesOfGroups | ETS/app/src/main/java/com/example/mymoneynotes/MainActivity.kt:403-410 | one slice per group with a positive sum, in key order, labels distinct, each slice carrying the sum and its category's colour |
| Chart.PieData | ETS/app/src/main/java/com/example/mymoneynotes/MainActivity.kt:395-411 | a slice exists exactly for each category of the selected type whose sum is positive, holding that sum and colour, in order of the category's first appearance; with positive amounts the slices add up to the total |
| Chart.Percentage | ETS/app/src/main/java/com/example/mymoneynotes/MainActivity.kt:529 | the share is 0 when the total is not positive; with a positive total, share × total = category total × 100, so it is 100 for the whole total and between 0 and 100 for a part |
| Chart.CategoryPercentageInRange | ETS/app/src/main/java/com/example/mymoneynotes/MainActivity.kt:527-529 | with positive amounts, any category's share of its type lies between 0 and 100 |
| Chart.SortedByDescendingDate | ETS/app/src/main/java/com/example/mymoneynotes/MainActivity.kt:511 | `sortedByDescending { it.date }` returns a permutation of its input with non-increasing dates |
| Chart.SortKeepsDayOrder | ETS/app/src/main/java/com/example/mymoneynotes/MainActivity.kt:511 | the sort is stable: the transactions of any one day keep their input order |
| Chart.AllListing | ETS/app/src/main/java/com/example/mymoneynotes/MainActivity.kt:510-511 | the "All" list is a permutation of the selected type's transactions, with exactly those members, newest first |
| Chart.CategoryListing | ETS/app/src/main/java/com/example/mymoneynotes/MainActivity.kt:531-534 | the detail list is a permutation of the transactions of the type and category, with exactly those members, newest first |
| Chart.HasAnyOfType | ETS/app/src/main/java/com/example/mymoneynotes/MainActivity.kt:501 | `any { it.type == filter }` holds exactly when the "All" list is non-empty |
| Chart.SelectFilter | ETS/app/src/main/java/com/example/mymoneynotes/MainActivity.kt:437-440 | a type button selects its type and clears the selected slice |
| Chart.ClickPie | ETS/app/src/main/java/com/example/mymoneynotes/MainActivity.kt:459-465 | a click on the selected slice's label deselects; any other click selects the clicked slice; the type filter is kept |
| Chart.ClickTwiceDeselects | ETS/app/src/main/java/com/example/mymoneynotes/MainActivity.kt:459-465 | two clicks on the same slice from a state where a different slice or none is selected return to no selection |
| Chart.MarkSelected | ETS/app/src/main/java/com/example/mymoneynotes/MainActivity.kt:455-457 | the drawn slices are the chart's slices with only the `selected` flag recomputed, and a slice is drawn selected exactly when it equals the remembered slice |
| Chart.AtMostOneMarked | ETS/app/src/main/java/com/example/mymoneynotes/MainActivity.kt:455-457 | with distinct labels at most one slice is drawn selected, and it equals the remembered slice |

## Left out

- The random number generator: `allWords.random()` and `CharArray.shuffle()` become supplied streams of draws (see above), and the game transitions take the resulting `Draw`.
- Unscramble.PickRandomWord: when every word is already used, the source's `pickRandomWordAndShuffle` keeps calling itself (it is not `tailrec`) until it crashes with `StackOverflowError`. The model reads that case as a search that never ends: `None` for every finite draw stream. The crash itself is not modelled.
- `allWords.random()` on an empty word list throws; `PickRandomWord` returns `None` there, since no index can be drawn.
- The word list and the constants `MAX_NO_OF_WORDS`, `SCORE_INCREASE` and `SHUFFLE_PENALTY`: the data file that defines them is not part of this model, so they are a `WordsData` parameter. `ValidWordsData` assumes a game length of at least one and 32-bit constants.
- `StateFlow`, `mutableStateOf` and Compose recomposition: each update is one function result. Composable layouts, `Scaffold`, `Crossfade`, the `PieChart` drawing, toasts, navigation (`showAddScreen`) and previews are left out.
- Unscramble.EqualsIgnoreCaseIffSameLowerCase: uses the ASCII case mapping; Kotlin also folds the case of non-ASCII letters.
- Transactions.AllDigitsOrPoints: `IsDigit` accepts only the ASCII digits `0`–`9`. Kotlin's `isDigit` also accepts other Unicode decimal digits, which the field would admit and `toDoubleOrNull` would then reject at save time.
- Transactions.ParseAmount: gives a value only for the text the amount field can hold. `toDoubleOrNull` on other text (signs, exponents, `NaN`) is not modelled, because the filter never lets such text into the field.
- Amounts are exact reals: IEEE `Double` rounding of the parse, of `sumOf` and of the percentage is not modelled.
- Transactions.ParsedAmountPositiveIff, Transactions.SaveSucceedsIff and Transactions.ParseAmountValue rely on that exact reading. A text that underflows a `Double`, such as "0." followed by 330 zeros and a 1, parses to 0.0 in the source, so its save fails with `InvalidAmount`, while these members call it positive.
- Currency and date formatting and the `%.1f` percentage text are locale-dependent and left out.
- `UUID.randomUUID()` and `LocalDate.now()`: ids and dates are caller-supplied naturals and day numbers. The date-picker dialog and its epoch-millisecond conversion are left out.
- Chart.PieData: the total equals the sum of the slices only when every amount is positive. Save guarantees that for saved transactions, and the dummy list of `generateInitialDummyData` has only positive amounts. That list itself is not part of this model, because its dates come from the clock.
- The `Pie` record keeps only label, data, colour and the selected flag. The label is never null here, because the source always sets it from a category.
- The login screens (`com/example/mylogin/MainActivity.kt`): Firebase sign-in callbacks and UI toggles with no logic to prove.
- The calculator apps (`Tugas W5/.../simplecalculator` and `Tugas W6/.../currencycalculator`) are outside the scope of this model: it covers only the unscramble game and the money notes.
- Characters are Unicode scalar values here, while Kotlin's `toCharArray()`, `shuffle()` and `==` work on UTF-16 code units. The model assumes a word list without supplementary characters. For a word such as "😀", the source shuffles the two surrogate halves and can change the word, while `ShuffleTerminationIff` says a one-character word never ends the loop.
- `currentWord` and `usedWords` are file-level variables in the source (`GameViewModel.kt`, lines 16-17), so every `GameViewModel` instance in a process shares them. The model gives each game its own copy, which matches the source only while one view model exists per process.

=== FILE: chart.dfy ===
/** The dashboard of ETS/.../mymoneynotes/MainActivity.kt (HomeScreen and
    getColorForCategory): the per-type filter and total, the per-category
    pie slices, the date-descending listings, the cached category colours
    and the slice selection.  The source computes these inside UI lambdas;
    here each is a pure function or method over the transaction list. */
module Chart {
  import opened Wrappers
  import opened Transactions

  // ---------------------------------------------------------------------
  // Filtering and summing

  /** Kotlin's `filter`: the elements satisfying `p`, in their order. */
  function Where(ts: seq<Transaction>, p: Transaction -> bool): (r: seq<Transaction>)
    ensures |r| <= |ts|
  {
    if |ts| == 0 then []
    else Where(ts[..|ts| - 1], p) + (if p(ts[|ts| - 1]) then [ts[|ts| - 1]] else [])
  }

  /** The filter keeps every element satisfying `p` as often as it occurs,
      and nothing else. */
  lemma {:induction false} WhereCounts(ts: seq<Transaction>, p: Transaction -> bool)
    ensures forall x :: multiset(Where(ts, p))[x] == if p(x) then multiset(ts)[x] else 0
    decreases |ts|
  {
    if |ts| > 0 {
      var init, last := ts[..|ts| - 1], ts[|ts| - 1];
      assert ts == init + [last];
      WhereCounts(init, p);
    }
  }

  lemma {:induction false} WhereAppend(a: seq<Transaction>, b: seq<Transaction>, p: Transaction -> bool)
    ensures Where(a + b, p) == Where(a, p) + Where(b, p)
    decreases |b|
  {
    if |b| > 0 {
      var init, last := b[..|b| - 1], b[|b| - 1];
      var ab := a + b;
      assert ab[..|ab| - 1] == a + init && ab[|ab| - 1] == last;
      assert Where(ab, p) == Where(a + init, p) + (if p(last) then [last] else []);
      WhereAppend(a, init, p);
      assert b[..|b| - 1] == init;
      assert Where(b, p) == Where(init, p) + (if p(last) then [last] else []);
      assert Where(ab, p) == Where(a, p) + Where(init, p) + (if p(last) then [last] else []);
    } else {
      assert a + b == a;
    }
  }

  /** `sumOf { it.amount }` */
  function SumAmounts(ts: seq<Transaction>): real {
    if |ts| == 0 then 0.0 else SumAmounts(ts[..|ts| - 1]) + ts[|ts| - 1].amount
  }

  lemma {:induction false} SumAppend(a: seq<Transaction>, b: seq<Transaction>)
    ensures SumAmounts(a + b) == SumAmounts(a) + SumAmounts(b)
    decreases |b|
  {
    if |b| > 0 {
      var ab := a + b;
      assert ab[..|ab| - 1] == a + b[..|b| - 1] && ab[|ab| - 1] == b[|b| - 1];
      assert SumAmounts(ab) == SumAmounts(a + b[..|b| - 1]) + b[|b| - 1].amount;
      SumAppend(a, b[..|b| - 1]);
    } else {
      assert a + b == a;
    }
  }

  predicate AllPositive(ts: seq<Transaction>) {
    forall k :: 0 <= k < |ts| ==> ts[k].amount > 0.0
  }

  /** The transactions of the selected type. */
  function OfType(ts: seq<Transaction>, t: FilterType): seq<Transaction> {
    Where(ts, (x: Transaction) => x.txType == t)
  }

  /** The transactions of one category. */
  function InCategory(ts: seq<Transaction>, c: string): seq<Transaction> {
    Where(ts, (x: Transaction) => x.category == c)
  }

  /** The transactions of one type and one category. */
  function OfTypeAndCategory(ts: seq<Transaction>, t: FilterType, c: string): seq<Transaction> {
    Where(ts, (x: Transaction) => x.txType == t && x.category == c)
  }

  /** The total of type `t` read straight off the whole list: each
      transaction adds its amount when it has type `t`, and nothing
      otherwise. */
  function TypeTotal(ts: seq<Transaction>, t: FilterType): real {
    if |ts| == 0 then 0.0
    else
      var last := ts[|ts| - 1];
      TypeTotal(ts[..|ts| - 1], t) + (if last.txType == t then last.amount else 0.0)
  }

  lemma {:induction false} SumOfTypeIsTypeTotal(ts: seq<Transaction>, t: FilterType)
    ensures SumAmounts(OfType(ts, t)) == TypeTotal(ts, t)
    decreases |ts|
  {
    if |ts| > 0 {
      var init, last := ts[..|ts| - 1], ts[|ts| - 1];
      assert OfType(ts, t) == OfType(init, t) + (if last.txType == t then [last] else []);
      SumOfTypeIsTypeTotal(init, t);
      if last.txType == t {
        SumAppend(OfType(init, t), [last]);
        SumSingle(last);
      } else {
        assert OfType(ts, t) == OfType(init, t);
      }
    }
  }

  /** The chart total: `filter { it.type == t }.sumOf { it.amount }`. */
  function OverallTotal(ts: seq<Transaction>, t: FilterType): (r: real)
    ensures r == TypeTotal(ts, t)
  {
    SumOfTypeIsTypeTotal(ts, t);
    SumAmounts(OfType(ts, t))
  }

  /** onAddTransaction: the new transaction goes to the end of the list. */
  function AddTransaction(ts: seq<Transaction>, x: Transaction): (r: seq<Transaction>)
    ensures |r| == |ts| + 1 && r[..|ts|] == ts && r[|ts|] == x
  {
    ts + [x]
  }

  /** Adding a transaction changes the total of its own type by its amount
      and leaves the other type's total alone. */
  lemma TotalAfterAdd(ts: seq<Transaction>, x: Transaction, t: FilterType)
    ensures OverallTotal(AddTransaction(ts, x), t) ==
      OverallTotal(ts, t) + (if x.txType == t then x.amount else 0.0)
  {
    var p := (y: Transaction) => y.txType == t;
    WhereAppend(ts, [x], p);
    SumAppend(Where(ts, p), Where([x], p));
    assert Where([x], p) == Where([], p) + (if p(x) then [x] else []);
  }

  /** The two totals together account for every transaction exactly once. */
  lemma {:induction false} TotalsPartition(ts: seq<Transaction>)
    ensures OverallTotal(ts, Pengeluaran) + OverallTotal(ts, Pemasukan) == SumAmounts(ts)
    decreases |ts|
  {
    if |ts| > 0 {
      var init, last := ts[..|ts| - 1], ts[|ts| - 1];
      assert ts == AddTransaction(init, last);
      TotalsPartition(init);
      TotalAfterAdd(init, last, Pengeluaran);
      TotalAfterAdd(init, last, Pemasukan);
    }
  }

  // ---------------------------------------------------------------------
  // Grouping by category

  /** The categories that occur in `ts`. */
  function CategoriesOf(ts: seq<Transaction>): set<string> {
    if |ts| == 0 then {} else CategoriesOf(ts[..|ts| - 1]) + {ts[|ts| - 1].category}
  }

  /** A category is among CategoriesOf exactly when some transaction carries it. */
  lemma {:induction false} CategoriesOfIff(ts: seq<Transaction>, c: string)
    ensures c in CategoriesOf(ts) <==> exists x :: x in ts && x.category == c
    decreases |ts|
  {
    if |ts| > 0 {
      var init, last := ts[..|ts| - 1], ts[|ts| - 1];
      assert ts == init + [last];
      CategoriesOfIff(init, c);
      if c in CategoriesOf(init) {
        var x :| x in init && x.category == c;
        assert x in ts;
      } else if last.category == c {
        assert last in ts;
      } else {
        forall x | x in ts ensures x.category != c {
          if x != last {
            assert x in init;
          }
        }
      }
    }
  }

  lemma CategoriesSnoc(ts: seq<Transaction>, x: Transaction)
    ensures CategoriesOf(ts + [x]) == CategoriesOf(ts) + {x.category}
  {
    assert (ts + [x])[..|ts|] == ts;
  }

  /** The sum of one category's amounts. */
  function CategorySum(ts: seq<Transaction>, c: string): real {
    SumAmounts(InCategory(ts, c))
  }

  lemma CategorySumSnoc(ts: seq<Transaction>, x: Transaction, c: string)
    ensures CategorySum(ts + [x], c) == CategorySum(ts, c) + (if x.category == c then x.amount else 0.0)
  {
    var p := (y: Transaction) => y.category == c;
    WhereAppend(ts, [x], p);
    SumAppend(Where(ts, p), Where([x], p));
    assert Where([x], p) == Where([], p) + (if p(x) then [x] else []);
  }

  /** A category that does not occur has sum zero. */
  lemma {:induction false} CategorySumAbsent(ts: seq<Transaction>, c: string)
    requires c !in CategoriesOf(ts)
    ensures CategorySum(ts, c) == 0.0
    decreases |ts|
  {
    if |ts| > 0 {
      var init, last := ts[..|ts| - 1], ts[|ts| - 1];
      assert ts == init + [last];
      CategorySumSnoc(init, last, c);
      CategorySumAbsent(init, c);
    }
  }

  /** With positive amounts, a category that occurs has a positive sum. */
  lemma {:induction false} CategorySumPositive(ts: seq<Transaction>, c: string)
    requires AllPositive(ts)
    requires c in CategoriesOf(ts)
    ensures CategorySum(ts, c) > 0.0
    decreases |ts|
  {
    var init, last := ts[..|ts| - 1], ts[|ts| - 1];
    assert ts == init + [last];
    CategorySumSnoc(init, last, c);
    CategorySumNonNegative(init, c);
    if last.category != c {
      CategorySumPositive(init, c);
    }
  }

  lemma {:induction false} CategorySumNonNegative(ts: seq<Transaction>, c: string)
    requires AllPositive(ts)
    ensures CategorySum(ts, c) >= 0.0
    decreases |ts|
  {
    if |ts| > 0 {
      var init, last := ts[..|ts| - 1], ts[|ts| - 1];
      assert ts == init + [last];
      CategorySumSnoc(init, last, c);
      CategorySumNonNegative(init, c);
    }
  }

  /** With non-negative amounts, a category's sum is at most the total. */
  lemma {:induction false} CategorySumAtMostTotal(ts: seq<Transaction>, c: string)
    requires forall k :: 0 <= k < |ts| ==> ts[k].amount >= 0.0
    ensures 0.0 <= CategorySum(ts, c) <= SumAmounts(ts)
    decreases |ts|
  {
    if |ts| > 0 {
      var init, last := ts[..|ts| - 1], ts[|ts| - 1];
      assert ts == init + [last];
      CategorySumSnoc(init, last, c);
      CategorySumAtMostTotal(init, c);
    }
  }

  predicate Distinct(keys: seq<string>) {
    forall i, j :: 0 <= i < j < |keys| ==> keys[i] != keys[j]
  }

  /** The keys of a key list, as a set. */
  function KeySet(keys: seq<string>): set<string> {
    if |keys| == 0 then {} else KeySet(keys[..|keys| - 1]) + {keys[|keys| - 1]}
  }

  lemma {:induction false} KeySetHas(keys: seq<string>, c: string)
    ensures c in KeySet(keys) <==> c in keys
    decreases |keys|
  {
    if |keys| > 0 {
      var init, last := keys[..|keys| - 1], keys[|keys| - 1];
      assert keys == init + [last];
      KeySetHas(init, c);
    }
  }

  /** The sum of the values of `sums` at `keys`; a key without a value adds nothing. */
  function SumOver(keys: seq<string>, sums: map<string, real>): real {
    if |keys| == 0 then 0.0
    else
      var last := keys[|keys| - 1];
      SumOver(keys[..|keys| - 1], sums) + (if last in sums then sums[last] else 0.0)
  }

  lemma {:induction false} SumOverBump(keys: seq<string>, sums: map<string, real>, c: string, a: real)
    requires Distinct(keys) && c in keys && c in sums
    ensures SumOver(keys, sums[c := sums[c] + a]) == SumOver(keys, sums) + a
    decreases |keys|
  {
    var init, last := keys[..|keys| - 1], keys[|keys| - 1];
    assert keys == init + [last];
    if last == c {
      assert c !in init;
      SumOverKeep(init, sums, c, sums[c] + a);
    } else {
      assert c in init;
      SumOverBump(init, sums, c, a);
    }
  }

  /** Changing the value of a key that is not listed leaves the sum alone. */
  lemma {:induction false} SumOverKeep(keys: seq<string>, sums: map<string, real>, c: string, v: real)
    requires c !in keys
    ensures SumOver(keys, sums[c := v]) == SumOver(keys, sums)
    decreases |keys|
  {
    if |keys| > 0 {
      var init := keys[..|keys| - 1];
      assert keys == init + [keys[|keys| - 1]];
      SumOverKeep(init, sums, c, v);
    }
  }

  /** What the grouping holds after reading the transactions `ts`. */
  ghost predicate GroupsOf(ts: seq<Transaction>, keys: seq<string>, sums: map<string, real>) {
    && Distinct(keys)
    && sums.Keys == KeySet(keys)
    && sums.Keys == CategoriesOf(ts)
    && (forall c :: c in sums ==> sums[c] == CategorySum(ts, c))
    && SumOver(keys, sums) == SumAmounts(ts)
  }

  lemma GroupsOfEmpty()
    ensures GroupsOf([], [], map[])
  {
  }

  lemma SumSingle(x: Transaction)
    ensures SumAmounts([x]) == x.amount
  {
    assert [x][..0] == [];
  }

  /** Each group's sum after reading one more transaction. */
  lemma GroupSumsSnoc(ts: seq<Transaction>, sums: map<string, real>, x: Transaction, sums': map<string, real>)
    requires forall c :: c in sums ==> sums[c] == CategorySum(ts, c)
    requires sums'.Keys == sums.Keys + {x.category}
    requires forall c :: c in sums' && c != x.category ==> sums'[c] == sums[c]
    requires sums'[x.category] == CategorySum(ts, x.category) + x.amount
    ensures forall c :: c in sums' ==> sums'[c] == CategorySum(ts + [x], c)
  {
    forall c | c in sums' ensures sums'[c] == CategorySum(ts + [x], c) {
      CategorySumSnoc(ts, x, c);
    }
  }

  /** A transaction of a category seen before adds its amount to that group. */
  lemma GroupsOfKnown(ts: seq<Transaction>, keys: seq<string>, sums: map<string, real>, x: Transaction,
                      keys': seq<string>, sums': map<string, real>)
    requires GroupsOf(ts, keys, sums)
    requires x.category in sums
    requires keys' == keys && sums' == sums[x.category := sums[x.category] + x.amount]
    ensures GroupsOf(ts + [x], keys', sums')
  {
    CategoriesSnoc(ts, x);
    GroupSumsSnoc(ts, sums, x, sums');
    KeySetHas(keys, x.category);
    GroupTotalKnown(ts, keys, sums, x);
  }

  /** The per-category sums of a category seen before still add up to the total. */
  lemma GroupTotalKnown(ts: seq<Transaction>, keys: seq<string>, sums: map<string, real>, x: Transaction)
    requires Distinct(keys) && x.category in keys && x.category in sums
    requires SumOver(keys, sums) == SumAmounts(ts)
    ensures SumOver(keys, sums[x.category := sums[x.category] + x.amount]) == SumAmounts(ts + [x])
  {
    SumOverBump(keys, sums, x.category, x.amount);
    SumSingle(x);
    SumAppend(ts, [x]);
  }

  /** A new key keeps the key list duplicate-free. */
  lemma KeysFresh(keys: seq<string>, c: string)
    requires Distinct(keys) && c !in keys
    ensures Distinct(keys + [c])
    ensures KeySet(keys + [c]) == KeySet(keys) + {c}
  {
    assert (keys + [c])[..|keys|] == keys;
  }

  /** The per-category sums with a new group still add up to the total. */
  lemma GroupTotalFresh(ts: seq<Transaction>, keys: seq<string>, sums: map<string, real>, x: Transaction)
    requires x.category !in keys && x.category !in sums
    requires SumOver(keys, sums) == SumAmounts(ts)
    ensures SumOver(keys + [x.category], sums[x.category := x.amount]) == SumAmounts(ts + [x])
  {
    var keys' := keys + [x.category];
    SumOverKeep(keys, sums, x.category, x.amount);
    assert keys'[..|keys|] == keys;
    SumSingle(x);
    SumAppend(ts, [x]);
  }

  /** A transaction of a new category opens a group holding its amount. */
  lemma GroupsOfFresh(ts: seq<Transaction>, keys: seq<string>, sums: map<string, real>, x: Transaction,
                      keys': seq<string>, sums': map<string, real>)
    requires GroupsOf(ts, keys, sums)
    requires x.category !in sums
    requires keys' == keys + [x.category] && sums' == sums[x.category := x.amount]
    ensures GroupsOf(ts + [x], keys', sums')
  {
    CategoriesSnoc(ts, x);
    CategorySumAbsent(ts, x.category);
    GroupSumsSnoc(ts, sums, x, sums');
    KeySetHas(keys, x.category);
    KeysFresh(keys, x.category);
    GroupTotalFresh(ts, keys, sums, x);
  }

  /** The categories of `ts`, each once, in order of first appearance. */
  function FirstAppearances(ts: seq<Transaction>): seq<string> {
    if |ts| == 0 then []
    else
      var earlier := FirstAppearances(ts[..|ts| - 1]);
      var c := ts[|ts| - 1].category;
      if c in earlier then earlier else earlier + [c]
  }

  lemma FirstAppearancesSnoc(ts: seq<Transaction>, x: Transaction)
    ensures FirstAppearances(ts + [x]) ==
      if x.category in FirstAppearances(ts) then FirstAppearances(ts)
      else FirstAppearances(ts) + [x.category]
  {
    assert (ts + [x])[..|ts|] == ts;
  }

  /** One step of the grouping: `x` joins its category's group, and a new
      category opens a group at the end of the key list. */
  function GroupStep(keys: seq<string>, sums: map<string, real>, x: Transaction): (seq<string>, map<string, real>) {
    if x.category in sums then (keys, sums[x.category := sums[x.category] + x.amount])
    else (keys + [x.category], sums[x.category := x.amount])
  }

  /** A grouping step keeps the grouping in step with the transactions
      read. */
  lemma GroupStepKeeps(ts: seq<Transaction>, keys: seq<string>, sums: map<string, real>, x: Transaction)
    requires GroupsOf(ts, keys, sums)
    ensures GroupsOf(ts + [x], GroupStep(keys, sums, x).0, GroupStep(keys, sums, x).1)
  {
    KeySetHas(keys, x.category);
    var next := GroupStep(keys, sums, x);
    if x.category in sums {
      GroupsOfKnown(ts, keys, sums, x, next.0, next.1);
    } else {
      GroupsOfFresh(ts, keys, sums, x, next.0, next.1);
    }
  }

  /** A grouping step keeps the keys in order of first appearance. */
  lemma GroupStepOrder(ts: seq<Transaction>, keys: seq<string>, sums: map<string, real>, x: Transaction)
    requires keys == FirstAppearances(ts)
    requires x.category in sums <==> x.category in keys
    ensures GroupStep(keys, sums, x).0 == FirstAppearances(ts + [x])
  {
    FirstAppearancesSnoc(ts, x);
  }

  /** The grouping after reading `ts` from the start. */
  function Grouping(ts: seq<Transaction>): (seq<string>, map<string, real>) {
    if |ts| == 0 then ([], map[])
    else
      var before := Grouping(ts[..|ts| - 1]);
      GroupStep(before.0, before.1, ts[|ts| - 1])
  }

  lemma {:induction false} GroupingGroups(ts: seq<Transaction>)
    ensures GroupsOf(ts, Grouping(ts).0, Grouping(ts).1)
    ensures Grouping(ts).0 == FirstAppearances(ts)
    decreases |ts|
  {
    if |ts| == 0 {
      GroupsOfEmpty();
    } else {
      var init, last := ts[..|ts| - 1], ts[|ts| - 1];
      assert ts == init + [last];
      GroupingGroups(init);
      var before := Grouping(init);
      KeySetHas(before.0, last.category);
      GroupStepKeeps(init, before.0, before.1, last);
      GroupStepOrder(init, before.0, before.1, last);
    }
  }

  /** What a finished grouping tells about the transactions. */
  lemma GroupsOfMeans(ts: seq<Transaction>, keys: seq<string>, sums: map<string, real>)
    requires GroupsOf(ts, keys, sums)
    ensures forall c :: c in sums <==> c in keys
  {
    forall c ensures c in sums <==> c in keys {
      KeySetHas(keys, c);
    }
  }

  /** `groupBy { it.category }.mapValues { sum }`: the categories in order
      of first appearance (the order of a `LinkedHashMap`) and each one's
      sum. */
  method GroupSumsByCategory(ts: seq<Transaction>) returns (keys: seq<string>, sums: map<string, real>)
    ensures (keys, sums) == Grouping(ts)
    ensures keys == FirstAppearances(ts)
    ensures Distinct(keys)
    ensures forall c :: c in sums <==> c in keys
    ensures sums.Keys == CategoriesOf(ts)
    ensures forall c :: c in sums ==> sums[c] == CategorySum(ts, c)
    ensures SumOver(keys, sums) == SumAmounts(ts)
  {
    keys, sums := [], map[];
    for i := 0 to |ts|
      invariant (keys, sums) == Grouping(ts[..i])
    {
      assert ts[..i + 1][..i] == ts[..i];
      var next := GroupStep(keys, sums, ts[i]);
      keys, sums := next.0, next.1;
    }
    assert ts[..|ts|] == ts;
    GroupingGroups(ts);
    GroupsOfMeans(ts, keys, sums);
  }

  // ---------------------------------------------------------------------
  // Category colours

  /** An ARGB colour. */
  datatype Color = Color(argb: nat)

  /** The colour table of the known categories. */
  const CategoriesColors: map<string, Color> := map[
    "Food" := Color(0xFFF44336),
    "Transport" := Color(0xFF2196F3),
    "Bills" := Color(0xFFFF9800),
    "Salary" := Color(0xFF4CAF50),
    "Freelance" := Color(0xFF009688),
    "Groceries" := Color(0xFF8BC34A),
    "Entertainment" := Color(0xFF9C27B0),
    "Other" := Color(0xFF607D8B)]

  /** Color.Gray */
  const FallbackColor: Color := Color(0xFF888888)

  /** The colour a category should get: its table entry, or the fallback. */
  function CategoryColor(c: string): Color {
    if c in CategoriesColors then CategoriesColors[c] else FallbackColor
  }

  /** Every cached colour is the one its category should get. */
  predicate CacheConsistent(cache: map<string, Color>) {
    forall c :: c in cache ==> cache[c] == CategoryColor(c)
  }

  /** getColorForCategory: `getOrPut` on the colour cache. */
  function GetColorForCategory(cache: map<string, Color>, category: string): (r: (Color, map<string, Color>))
    ensures category in r.1 && r.1[category] == r.0
    ensures r.1.Keys == cache.Keys + {category}
    ensures category in cache ==> r == (cache[category], cache)
    ensures category !in cache ==> r.0 == CategoryColor(category)
    ensures CacheConsistent(cache) ==> r.0 == CategoryColor(category) && CacheConsistent(r.1)
  {
    if category in cache then (cache[category], cache)
    else
      var color := CategoryColor(category);
      (color, cache[category := color])
  }

  /** A second lookup of the same category returns the same colour and
      leaves the cache as the first left it. */
  lemma ColorLookupRepeats(cache: map<string, Color>, category: string)
    ensures var (color, cache') := GetColorForCategory(cache, category);
      GetColorForCategory(cache', category) == (color, cache')
  {
  }

  // ---------------------------------------------------------------------
  // Pie slices

  /** A chart slice; `name` is the source's `label`. */
  datatype Pie = Pie(name: string, data: real, color: Color, selected: bool)

  function SliceTotal(slices: seq<Pie>): real {
    if |slices| == 0 then 0.0 else SliceTotal(slices[..|slices| - 1]) + slices[|slices| - 1].data
  }

  predicate DistinctLabels(slices: seq<Pie>) {
    forall i, j :: 0 <= i < j < |slices| ==> slices[i].name != slices[j].name
  }

  /** A slice shows one positive group with its category's colour. */
  predicate SliceOfGroup(pie: Pie, sums: map<string, real>) {
    && pie.name in sums
    && pie.data == sums[pie.name]
    && pie.data > 0.0
    && pie.color == CategoryColor(pie.name)
    && !pie.selected
  }

  predicate HasSliceFor(slices: seq<Pie>, c: string) {
    exists k :: 0 <= k < |slices| && slices[k].name == c
  }

  /** The slices of the groups listed in `keys`: every group with a
      positive sum, in key order, with its category's colour and not
      selected. */
  function SlicesFor(keys: seq<string>, sums: map<string, real>): seq<Pie> {
    if |keys| == 0 then []
    else
      var c := keys[|keys| - 1];
      SlicesFor(keys[..|keys| - 1], sums)
        + (if c in sums && sums[c] > 0.0 then [Pie(c, sums[c], CategoryColor(c), false)] else [])
  }

  /** What a slice list holds when it shows the groups listed in `done`. */
  ghost predicate SlicesOver(done: seq<string>, sums: map<string, real>, slices: seq<Pie>) {
    && (forall k :: 0 <= k < |slices| ==> slices[k].name in done)
    && DistinctLabels(slices)
    && (forall k :: 0 <= k < |slices| ==> SliceOfGroup(slices[k], sums))
    && (forall c :: c in done && c in sums && sums[c] > 0.0 ==> HasSliceFor(slices, c))
    && ((forall c :: c in sums ==> sums[c] > 0.0) ==> SliceTotal(slices) == SumOver(done, sums))
  }

  /** A group whose sum is not positive is dropped. */
  lemma SlicesSkip(done: seq<string>, c: string, sums: map<string, real>, slices: seq<Pie>)
    requires SlicesOver(done, sums, slices)
    requires !(c in sums && sums[c] > 0.0)
    ensures SlicesOver(done + [c], sums, slices)
  {
    assert (done + [c])[..|done|] == done;
  }

  /** Appending the slice of `c` keeps every earlier positive group
      covered and covers `c`. */
  lemma SlicesAddCovers(done: seq<string>, c: string, sums: map<string, real>, slices: seq<Pie>, pie: Pie)
    requires forall c' :: c' in done && c' in sums && sums[c'] > 0.0 ==> HasSliceFor(slices, c')
    requires pie.name == c
    ensures forall c' :: c' in done + [c] && c' in sums && sums[c'] > 0.0 ==> HasSliceFor(slices + [pie], c')
  {
    var slices' := slices + [pie];
    forall c' | c' in done + [c] && c' in sums && sums[c'] > 0.0 ensures HasSliceFor(slices', c') {
      if c' == c {
        assert slices'[|slices|].name == c;
      } else {
        var k :| 0 <= k < |slices| && slices[k].name == c';
        assert slices'[k].name == c';
      }
    }
  }

  /** A group whose sum is positive becomes the next slice. */
  lemma SlicesAdd(done: seq<string>, c: string, sums: map<string, real>, slices: seq<Pie>)
    requires SlicesOver(done, sums, slices)
    requires c !in done && c in sums && sums[c] > 0.0
    ensures SlicesOver(done + [c], sums, slices + [Pie(c, sums[c], CategoryColor(c), false)])
  {
    var pie := Pie(c, sums[c], CategoryColor(c), false);
    var slices' := slices + [pie];
    assert (done + [c])[..|done|] == done;
    assert slices'[..|slices|] == slices;
    assert slices'[|slices|] == pie;
    SlicesAddCovers(done, c, sums, slices, pie);
  }

  /** The slices of distinct groups are the positive groups, each once,
      adding up to the groups' total when every group is positive. */
  lemma {:induction false} SlicesForOver(keys: seq<string>, sums: map<string, real>)
    requires Distinct(keys)
    ensures SlicesOver(keys, sums, SlicesFor(keys, sums))
    decreases |keys|
  {
    if |keys| > 0 {
      var init, c := keys[..|keys| - 1], keys[|keys| - 1];
      assert keys == init + [c];
      SlicesForOver(init, sums);
      if c in sums && sums[c] > 0.0 {
        SlicesAdd(init, c, sums, SlicesFor(init, sums));
      } else {
        SlicesSkip(init, c, sums, SlicesFor(init, sums));
        assert SlicesFor(keys, sums) == SlicesFor(init, sums);
      }
    }
  }

  /** `.filter { it.value > 0 }.map { Pie(label, data, getColorForCategory(label)) }`
      over the groups in key order. */
  method SlicesOfGroups(keys: seq<string>, sums: map<string, real>, cache: map<string, Color>)
    returns (slices: seq<Pie>, cache': map<string, Color>)
    requires Distinct(keys)
    requires forall c :: c in sums <==> c in keys
    requires CacheConsistent(cache)
    ensures slices == SlicesFor(keys, sums)
    ensures CacheConsistent(cache')
    ensures DistinctLabels(slices)
    ensures forall k :: 0 <= k < |slices| ==> SliceOfGroup(slices[k], sums)
    ensures forall c :: c in sums && sums[c] > 0.0 ==> HasSliceFor(slices, c)
    ensures (forall c :: c in sums ==> sums[c] > 0.0) ==> SliceTotal(slices) == SumOver(keys, sums)
  {
    slices, cache' := [], cache;
    for j := 0 to |keys|
      invariant slices == SlicesFor(keys[..j], sums)
      invariant CacheConsistent(cache')
    {
      var c := keys[j];
      assert keys[..j + 1][..j] == keys[..j];
      if sums[c] > 0.0 {
        var lookup := GetColorForCategory(cache', c);
        slices, cache' := slices + [Pie(c, sums[c], lookup.0, false)], lookup.1;
      }
    }
    assert keys[..|keys|] == keys;
    SlicesForOver(keys, sums);
  }

  /** Filtering keeps every amount positive. */
  lemma WherePositive(ts: seq<Transaction>, p: Transaction -> bool)
    requires AllPositive(ts)
    ensures AllPositive(Where(ts, p))
  {
    var r := Where(ts, p);
    WhereCounts(ts, p);
    forall k | 0 <= k < |r| ensures r[k].amount > 0.0 {
      assert r[k] in multiset(r);
    }
  }

  /** The slices of the groups of `ts` show exactly the categories with a
      positive sum, each with that sum and its colour. */
  lemma SlicesShowGroups(ts: seq<Transaction>, sums: map<string, real>, slices: seq<Pie>)
    requires sums.Keys == CategoriesOf(ts)
    requires forall c :: c in sums ==> sums[c] == CategorySum(ts, c)
    requires forall k :: 0 <= k < |slices| ==> SliceOfGroup(slices[k], sums)
    requires forall c :: c in sums && sums[c] > 0.0 ==> HasSliceFor(slices, c)
    ensures forall k :: 0 <= k < |slices| ==>
      && slices[k].data == CategorySum(ts, slices[k].name)
      && slices[k].data > 0.0
      && slices[k].color == CategoryColor(slices[k].name)
    ensures forall c :: HasSliceFor(slices, c) <==>
      c in CategoriesOf(ts) && CategorySum(ts, c) > 0.0
  {
    forall c | HasSliceFor(slices, c) ensures c in CategoriesOf(ts) && CategorySum(ts, c) > 0.0 {
      var k :| 0 <= k < |slices| && slices[k].name == c;
      assert SliceOfGroup(slices[k], sums);
    }
  }

  /** With positive amounts every group is positive, so the slices add up
      to the total of the groups. */
  lemma SlicesShowTotal(ts: seq<Transaction>, keys: seq<string>, sums: map<string, real>, slices: seq<Pie>)
    requires AllPositive(ts)
    requires sums.Keys == CategoriesOf(ts)
    requires forall c :: c in sums ==> sums[c] == CategorySum(ts, c)
    requires SumOver(keys, sums) == SumAmounts(ts)
    requires (forall c :: c in sums ==> sums[c] > 0.0) ==> SliceTotal(slices) == SumOver(keys, sums)
    ensures SliceTotal(slices) == SumAmounts(ts)
  {
    forall c | c in sums ensures sums[c] > 0.0 {
      CategorySumPositive(ts, c);
    }
  }

  /** The pie data of HomeScreen for the selected type. */
  method PieData(ts: seq<Transaction>, filter: FilterType, cache: map<string, Color>)
    returns (slices: seq<Pie>, cache': map<string, Color>)
    requires CacheConsistent(cache)
    ensures slices == SlicesFor(FirstAppearances(OfType(ts, filter)), Grouping(OfType(ts, filter)).1)
    ensures CacheConsistent(cache')
    ensures DistinctLabels(slices)
    ensures forall k :: 0 <= k < |slices| ==>
      && slices[k].data == CategorySum(OfType(ts, filter), slices[k].name)
      && slices[k].data > 0.0
      && slices[k].color == CategoryColor(slices[k].name)
    ensures forall c :: HasSliceFor(slices, c) <==>
      c in CategoriesOf(OfType(ts, filter)) && CategorySum(OfType(ts, filter), c) > 0.0
    ensures AllPositive(ts) ==> SliceTotal(slices) == OverallTotal(ts, filter)
  {
    var filtered := OfType(ts, filter);
    var keys, sums := GroupSumsByCategory(filtered);
    slices, cache' := SlicesOfGroups(keys, sums, cache);
    SlicesShowGroups(filtered, sums, slices);
    if AllPositive(ts) {
      WherePositive(ts, (x: Transaction) => x.txType == filter);
      SlicesShowTotal(filtered, keys, sums, slices);
    }
  }


  /** The share of a slice in the total, as the detail card shows it
      before formatting. */
  function Percentage(categoryTotal: real, total: real): (r: real)
    ensures total <= 0.0 ==> r == 0.0
    ensures 0.0 <= categoryTotal <= total ==> 0.0 <= r <= 100.0
    ensures total > 0.0 && categoryTotal == total ==> r == 100.0
    ensures total > 0.0 ==> r * total == categoryTotal * 100.0
  {
    if total > 0.0 then (categoryTotal / total) * 100.0 else 0.0
  }

  /** The share of any category of the selected type lies between 0 and 100. */
  lemma CategoryPercentageInRange(ts: seq<Transaction>, filter: FilterType, c: string)
    requires AllPositive(ts)
    ensures 0.0 <= Percentage(CategorySum(OfType(ts, filter), c), OverallTotal(ts, filter)) <= 100.0
  {
    var filtered := OfType(ts, filter);
    WhereCounts(ts, (x: Transaction) => x.txType == filter);
    forall k | 0 <= k < |filtered| ensures filtered[k].amount >= 0.0 {
      assert filtered[k] in multiset(filtered);
    }
    CategorySumAtMostTotal(filtered, c);
  }

  // ---------------------------------------------------------------------
  // Listings, newest first

  predicate DateDescending(s: seq<Transaction>) {
    forall i, j :: 0 <= i < j < |s| ==> s[i].date >= s[j].date
  }

  /** Insert `x` after every element dated on or after it. */
  function InsertByDate(s: seq<Transaction>, x: Transaction): seq<Transaction> {
    if |s| == 0 then [x]
    else if s[0].date >= x.date then [s[0]] + InsertByDate(s[1..], x)
    else [x] + s
  }

  /** Insertion into a newest-first list keeps it newest first. */
  lemma {:induction false} InsertKeepsOrder(s: seq<Transaction>, x: Transaction)
    requires DateDescending(s)
    ensures DateDescending(InsertByDate(s, x))
    ensures |InsertByDate(s, x)| == |s| + 1
    ensures InsertByDate(s, x)[0] == x || (|s| > 0 && InsertByDate(s, x)[0] == s[0])
    decreases |s|
  {
    if |s| > 0 && s[0].date >= x.date {
      InsertKeepsOrder(s[1..], x);
      var rest := InsertByDate(s[1..], x);
      assert rest[0].date <= s[0].date;
    }
  }

  /** Insertion adds exactly `x`. */
  lemma {:induction false} InsertAddsOne(s: seq<Transaction>, x: Transaction)
    ensures multiset(InsertByDate(s, x)) == multiset(s) + multiset{x}
    decreases |s|
  {
    if |s| > 0 && s[0].date >= x.date {
      InsertAddsOne(s[1..], x);
      assert s == [s[0]] + s[1..];
    }
  }

  /** `sortedByDescending { it.date }`: a stable sort, newest first. */
  function SortedByDescendingDate(s: seq<Transaction>): (r: seq<Transaction>)
    ensures DateDescending(r)
    ensures multiset(r) == multiset(s)
  {
    if |s| == 0 then []
    else
      var init, last := s[..|s| - 1], s[|s| - 1];
      assert s == init + [last];
      InsertKeepsOrder(SortedByDescendingDate(init), last);
      InsertAddsOne(SortedByDescendingDate(init), last);
      InsertByDate(SortedByDescendingDate(init), last)
  }

  /** The transactions of one day, in list order. */
  function OnDate(ts: seq<Transaction>, d: int): seq<Transaction> {
    Where(ts, (x: Transaction) => x.date == d)
  }

  lemma OnDateSingle(x: Transaction, d: int)
    ensures OnDate([x], d) == if x.date == d then [x] else []
  {
    assert [x][..0] == [];
  }

  lemma OnDateNone(s: seq<Transaction>, d: int)
    requires forall k :: 0 <= k < |s| ==> s[k].date != d
    ensures OnDate(s, d) == []
  {
    var p := (x: Transaction) => x.date == d;
    WhereCounts(s, p);
    var r := OnDate(s, d);
    assert forall y :: y in multiset(r) ==> y in s && y.date == d;
    assert multiset(r) == multiset{};
  }

  /** Insertion puts `x` after the transactions of its own day. */
  lemma {:induction false} InsertKeepsDayOrder(s: seq<Transaction>, x: Transaction, d: int)
    requires DateDescending(s)
    ensures OnDate(InsertByDate(s, x), d) == OnDate(s, d) + (if x.date == d then [x] else [])
    decreases |s|
  {
    OnDateSingle(x, d);
    if |s| > 0 && s[0].date >= x.date {
      InsertKeepsDayOrder(s[1..], x, d);
      InsertAfterHead(s, x, d);
    } else if |s| > 0 {
      InsertAtFront(s, x, d);
    }
  }

  lemma OnDateCons(h: Transaction, t: seq<Transaction>, d: int)
    ensures OnDate([h] + t, d) == OnDate([h], d) + OnDate(t, d)
  {
    WhereAppend([h], t, (y: Transaction) => y.date == d);
  }

  lemma InsertAfterHead(s: seq<Transaction>, x: Transaction, d: int)
    requires |s| > 0 && s[0].date >= x.date
    requires OnDate(InsertByDate(s[1..], x), d) == OnDate(s[1..], d) + OnDate([x], d)
    ensures OnDate(InsertByDate(s, x), d) == OnDate(s, d) + OnDate([x], d)
  {
    var rest := InsertByDate(s[1..], x);
    assert InsertByDate(s, x) == [s[0]] + rest;
    OnDateCons(s[0], rest, d);
    assert s == [s[0]] + s[1..];
    OnDateCons(s[0], s[1..], d);
  }

  lemma InsertAtFront(s: seq<Transaction>, x: Transaction, d: int)
    requires DateDescending(s) && |s| > 0 && s[0].date < x.date
    ensures OnDate(InsertByDate(s, x), d) == OnDate(s, d) + OnDate([x], d)
  {
    assert InsertByDate(s, x) == [x] + s;
    OnDateCons(x, s, d);
    OnDateSingle(x, d);
    if x.date == d {
      forall k | 0 <= k < |s| ensures s[k].date != d {
        assert k == 0 || s[0].date >= s[k].date;
      }
      OnDateNone(s, d);
      assert OnDate(s, d) + OnDate([x], d) == [x];
    } else {
      assert OnDate([x], d) + OnDate(s, d) == OnDate(s, d) + OnDate([x], d);
    }
  }

  /** The sort is stable: the transactions of any one day keep the order
      they had in the input. */
  lemma {:induction false} SortKeepsDayOrder(s: seq<Transaction>, d: int)
    ensures OnDate(SortedByDescendingDate(s), d) == OnDate(s, d)
    decreases |s|
  {
    if |s| > 0 {
      var init, last := s[..|s| - 1], s[|s| - 1];
      assert s == init + [last];
      InsertKeepsDayOrder(SortedByDescendingDate(init), last, d);
      SortKeepsDayOrder(init, d);
      OnDateSingle(last, d);
      WhereAppend(init, [last], (x: Transaction) => x.date == d);
    }
  }

  /** The "All" list: the transactions of the selected type, newest first. */
  function AllListing(ts: seq<Transaction>, filter: FilterType): (r: seq<Transaction>)
    ensures DateDescending(r)
    ensures multiset(r) == multiset(OfType(ts, filter))
    ensures forall x :: x in r <==> x in ts && x.txType == filter
  {
    var r := SortedByDescendingDate(OfType(ts, filter));
    WhereCounts(ts, (x: Transaction) => x.txType == filter);
    assert forall x :: x in r <==> x in multiset(r);
    r
  }

  /** The category detail list: the transactions of the selected type and
      category, newest first. */
  function CategoryListing(ts: seq<Transaction>, filter: FilterType, category: string): (r: seq<Transaction>)
    ensures DateDescending(r)
    ensures multiset(r) == multiset(OfTypeAndCategory(ts, filter, category))
    ensures forall x :: x in r <==> x in ts && x.txType == filter && x.category == category
  {
    var r := SortedByDescendingDate(OfTypeAndCategory(ts, filter, category));
    WhereCounts(ts, (x: Transaction) => x.txType == filter && x.category == category);
    assert forall x :: x in r <==> x in multiset(r);
    r
  }

  /** `transactions.any { it.type == filter }`: whether the "All" list is shown. */
  function HasAnyOfType(ts: seq<Transaction>, filter: FilterType): (b: bool)
    ensures b <==> |AllListing(ts, filter)| > 0
  {
    var r := AllListing(ts, filter);
    assert |r| > 0 ==> r[0] in r;
    exists x :: x in ts && x.txType == filter
  }

  // ---------------------------------------------------------------------
  // Selection

  /** The screen's remembered state: the type filter and the selected slice.
      The screen starts as HomeState(Pengeluaran, None). */
  datatype HomeState = HomeState(selectedPrimaryFilter: FilterType, selectedPieSlice: Option<Pie>)

  /** A click on a type button selects that type and clears the slice. */
  function SelectFilter(h: HomeState, filter: FilterType): (h': HomeState)
    ensures h'.selectedPrimaryFilter == filter && h'.selectedPieSlice == None
  {
    HomeState(filter, None)
  }

  /** A click on a slice: the selected slice's label again deselects,
      anything else selects the clicked slice. */
  function ClickPie(h: HomeState, clicked: Pie): (h': HomeState)
    ensures h'.selectedPrimaryFilter == h.selectedPrimaryFilter
    ensures h'.selectedPieSlice == None <==>
      h.selectedPieSlice.Some? && h.selectedPieSlice.value.name == clicked.name
    ensures h'.selectedPieSlice.Some? ==> h'.selectedPieSlice.value == clicked
  {
    var deselect := h.selectedPieSlice.Some? && h.selectedPieSlice.value.name == clicked.name;
    h.(selectedPieSlice := if deselect then None else Some(clicked))
  }

  /** A second click on the same slice always leaves nothing selected. */
  lemma ClickTwiceDeselects(h: HomeState, clicked: Pie)
    ensures ClickPie(ClickPie(h, clicked), clicked).selectedPieSlice == None ||
      (h.selectedPieSlice.Some? && h.selectedPieSlice.value.name == clicked.name)
    ensures !(h.selectedPieSlice.Some? && h.selectedPieSlice.value.name == clicked.name) ==>
      ClickPie(ClickPie(h, clicked), clicked) == h.(selectedPieSlice := None)
  {
  }

  /** `pie.copy(selected = pie == selectedPieSlice)` for every slice. */
  function MarkSelected(slices: seq<Pie>, sel: Option<Pie>): (r: seq<Pie>)
    ensures |r| == |slices|
    ensures forall k :: 0 <= k < |r| ==> r[k].(selected := slices[k].selected) == slices[k]
    ensures forall k :: 0 <= k < |r| ==> (r[k].selected <==> sel == Some(slices[k]))
  {
    seq(|slices|, k requires 0 <= k < |slices| => slices[k].(selected := sel == Some(slices[k])))
  }

  /** With distinct labels, at most one slice is drawn selected, and it is
      the remembered one. */
  lemma AtMostOneMarked(slices: seq<Pie>, sel: Option<Pie>)
    requires DistinctLabels(slices)
    ensures var r := MarkSelected(slices, sel);
      && (forall i, j :: 0 <= i < |r| && 0 <= j < |r| && r[i].selected && r[j].selected ==> i == j)
      && (forall i :: 0 <= i < |r| && r[i].selected ==> sel == Some(slices[i]))
  {
    var r := MarkSelected(slices, sel);
    forall i, j | 0 <= i < |r| && 0 <= j < |r| && r[i].selected && r[j].selected
      ensures i == j
    {
      assert slices[i] == sel.value == slices[j];
      assert slices[i].name == slices[j].name;
    }
  }
}

=== FILE: game_invariants.dfy ===
/** What holds of the unscramble game from its start through any sequence
    of user actions: the word count stays in step with the used words, the
    game never runs past its length, and the shown scramble is always a
    scramble of the current word. */
module GameInvariants {
  import opened Wrappers
  import opened Shuffle
  import opened Unscramble

  /** Data the game can run on: a game of at least one word whose length
      and score constants are Kotlin Ints. */
  predicate ValidWordsData(data: WordsData) {
    && 1 <= data.maxNoOfWords <= INT32_MAX
    && IsInt32(data.scoreIncrease)
    && IsInt32(data.shufflePenalty)
  }

  predicate Inv(data: WordsData, g: Game) {
    && 1 <= |g.usedWords| <= data.maxNoOfWords
    && g.ui.currentWordCount == |g.usedWords|
    && g.currentWord in g.usedWords
    && (forall w :: w in g.usedWords ==> w in data.allWords)
    && IsScrambleOf(g.currentWord, g.ui.currentScrambledWord)
    && (g.ui.isGameOver ==> |g.usedWords| == data.maxNoOfWords)
    && IsInt32(g.ui.score)
  }

  /** The things a player can do, plus the view model's public
      `updateScore`; the draws are the random outcomes the action consumes
      when it picks or scrambles a word. */
  datatype Action =
    | Reset(d: Draw)
    | TypeGuess(text: string)
    | Submit(d: Draw)
    | Skip(d: Draw)
    | Rescramble(scrambled: string)
    | SetScore(n: int)

  /** The source can carry out `a` on `g` with these random outcomes. */
  predicate Enabled(data: WordsData, g: Game, a: Action) {
    match a
    case Reset(d) => LegalDraw(data, {}, d)
    case TypeGuess(_) => true
    case Submit(d) => GuessIsCorrect(g) && !AtLastWord(data, g) ==> LegalDraw(data, g.usedWords, d)
    case Skip(d) => !AtLastWord(data, g) ==> LegalDraw(data, g.usedWords, d)
    case Rescramble(s) => IsScrambleOf(g.currentWord, s)
    case SetScore(n) => IsInt32(n)
  }

  function Step(data: WordsData, g: Game, a: Action): (g': Game)
    requires Enabled(data, g, a)
    ensures a.SetScore? ==> g'.ui.score == a.n
    ensures !a.SetScore? ==> g'.ui.score in {
      0,
      g.ui.score,
      Wrap32(g.ui.score + data.scoreIncrease),
      Wrap32(g.ui.score - data.shufflePenalty)}
  {
    match a
    case Reset(d) => ResetGame(data, g, d)
    case TypeGuess(t) => UpdateUserGuess(g, t)
    case Submit(d) => CheckUserGuess(data, g, d)
    case Skip(d) => SkipWord(data, g, d)
    case Rescramble(s) => Reshuffle(data, g, s)
    case SetScore(n) => UpdateScore(g, n)
  }

  /** Carry out `actions` in order; None when one of them is not enabled. */
  function Run(data: WordsData, g: Game, actions: seq<Action>): Option<Game>
    decreases |actions|
  {
    if |actions| == 0 then Some(g)
    else if Enabled(data, g, actions[0]) then Run(data, Step(data, g, actions[0]), actions[1..])
    else None
  }

  lemma NewGameEstablishesInv(data: WordsData, d: Draw)
    requires ValidWordsData(data)
    requires LegalDraw(data, {}, d)
    ensures Inv(data, NewGame(data, d))
  {
  }

  lemma StepPreservesInv(data: WordsData, g: Game, a: Action)
    requires ValidWordsData(data)
    requires Inv(data, g)
    requires Enabled(data, g, a)
    ensures Inv(data, Step(data, g, a))
  {
    match a
    case Reset(d) =>
    case TypeGuess(t) =>
    case Submit(d) =>
      if GuessIsCorrect(g) && !AtLastWord(data, g) {
        assert |g.usedWords| < data.maxNoOfWords;
      }
    case Skip(d) =>
      if !AtLastWord(data, g) {
        assert |g.usedWords| < data.maxNoOfWords;
      }
    case Rescramble(s) =>
    case SetScore(n) =>
  }

  /** The invariant holds after every sequence of enabled actions. */
  lemma {:induction false} RunPreservesInv(data: WordsData, g: Game, actions: seq<Action>)
    requires ValidWordsData(data)
    requires Inv(data, g)
    requires Run(data, g, actions).Some?
    ensures Inv(data, Run(data, g, actions).value)
    decreases |actions|
  {
    if |actions| > 0 {
      StepPreservesInv(data, g, actions[0]);
      RunPreservesInv(data, Step(data, g, actions[0]), actions[1..]);
    }
  }

  /** From a fresh game, every reachable state keeps the word count equal
      to the number of used words, within the game length. */
  lemma WordCountTracksUsedWords(data: WordsData, d: Draw, actions: seq<Action>)
    requires ValidWordsData(data)
    requires LegalDraw(data, {}, d)
    requires Run(data, NewGame(data, d), actions).Some?
    ensures var g := Run(data, NewGame(data, d), actions).value;
      g.ui.currentWordCount == |g.usedWords| <= data.maxNoOfWords
  {
    NewGameEstablishesInv(data, d);
    RunPreservesInv(data, NewGame(data, d), actions);
  }

  /** Once the game is over, skipping and guessing can no longer change
      the word, the word count or the used words. */
  lemma GameOverIsFinalForWords(data: WordsData, g: Game, a: Action)
    requires Inv(data, g) && g.ui.isGameOver
    requires Enabled(data, g, a)
    requires a.Submit? || a.Skip? || a.TypeGuess?
    ensures var g' := Step(data, g, a);
      && g'.ui.isGameOver
      && g'.currentWord == g.currentWord
      && g'.usedWords == g.usedWords
      && g'.ui.currentWordCount == g.ui.currentWordCount
  {
  }
}

=== FILE: shuffle.dfy ===
/** The word scrambler of the unscramble game (shuffleCurrentWord in
    GameViewModel.kt).  Kotlin's `CharArray.shuffle()` is the Fisher-Yates
    shuffle: for i from the last index down to 1 it swaps a[i] with a[j],
    where j = nextInt(i + 1).  The random numbers are not drawn here: a
    roll sequence records the j chosen at each step, and the retry loop
    consumes one roll sequence per shuffle. */
module Shuffle {
  import opened Wrappers

  /** `rolls` is a possible sequence of random draws for one shuffle of an
      array of length n: one draw per step, the k-th in [0, n-1-k]. */
  predicate ValidRolls(n: nat, rolls: seq<nat>) {
    && |rolls| == (if n == 0 then 0 else n - 1)
    && forall k :: 0 <= k < |rolls| ==> rolls[k] <= n - 1 - k
  }

  /** Every element of `draws` is a valid roll sequence for length n. */
  predicate ValidDraws(n: nat, draws: seq<seq<nat>>) {
    forall k :: 0 <= k < |draws| ==> ValidRolls(n, draws[k])
  }

  /** A scramble of `word`: the same characters, in a different order. */
  predicate IsScrambleOf(word: string, s: string) {
    multiset(s) == multiset(word) && s != word
  }

  /** Some two positions of `word` hold different characters. */
  predicate HasTwoDistinct(word: string) {
    exists i, j :: 0 <= i < j < |word| && word[i] != word[j]
  }

  function Swap(a: string, i: nat, j: nat): (r: string)
    requires i < |a| && j < |a|
    ensures |r| == |a| && multiset(r) == multiset(a)
    ensures r[i] == a[j] && r[j] == a[i]
  {
    a[i := a[j]][j := a[i]]
  }

  /** Steps k, k+1, ... of the Fisher-Yates loop; step k swaps index
      |a|-1-k with the index drawn for it. */
  function FisherYatesFrom(a: string, rolls: seq<nat>, k: nat): (r: string)
    requires ValidRolls(|a|, rolls) && k <= |rolls|
    ensures |r| == |a| && multiset(r) == multiset(a)
    decreases |rolls| - k
  {
    if k == |rolls| then a
    else FisherYatesFrom(Swap(a, |a| - 1 - k, rolls[k]), rolls, k + 1)
  }

  /** One call of `shuffle()` on a character array, with its random draws. */
  function FisherYates(a: string, rolls: seq<nat>): (r: string)
    requires ValidRolls(|a|, rolls)
    ensures |r| == |a| && multiset(r) == multiset(a)
  {
    FisherYatesFrom(a, rolls, 0)
  }

  /** `w` is the shuffle of `word` by the first draw that changes it. */
  ghost predicate FirstChangingDraw(word: string, draws: seq<seq<nat>>, w: string)
    requires ValidDraws(|word|, draws)
  {
    exists k :: 0 <= k < |draws| && w == FisherYates(word, draws[k]) && w != word
      && forall m :: 0 <= m < k ==> FisherYates(word, draws[m]) == word
  }

  /**
   * Retrying from the word itself gives up exactly when every draw leaves
   * the word as it is, and otherwise stops at the first draw that moves it.
   */
  lemma {:induction false} RetryFromWord(word: string, draws: seq<seq<nat>>, r: Option<string>)
    requires ValidDraws(|word|, draws)
    requires r == RetryShuffle(word, word, draws)
    ensures r.None? <==> forall k :: 0 <= k < |draws| ==> FisherYates(word, draws[k]) == word
    ensures r.Some? ==> FirstChangingDraw(word, draws, r.value)
    decreases |draws|
  {
    if |draws| == 0 {
    } else if FisherYates(word, draws[0]) != word {
      assert r == Some(FisherYates(word, draws[0]));
      assert FirstChangingDraw(word, draws, r.value);
    } else {
      var rest := draws[1..];
      assert ValidDraws(|word|, rest);
      assert r == RetryShuffle(word, word, rest);
      RetryFromWord(word, rest, r);
      if r.None? {
        AllFixAfterFixingDraw(word, draws);
      } else {
        FirstChangeAfterFixingDraw(word, draws, r.value);
      }
    }
  }

  /** A first draw that leaves the word unchanged does not break "every
      draw leaves the word unchanged". */
  lemma AllFixAfterFixingDraw(word: string, draws: seq<seq<nat>>)
    requires ValidDraws(|word|, draws) && |draws| > 0
    requires FisherYates(word, draws[0]) == word
    requires forall k :: 0 <= k < |draws| - 1 ==> FisherYates(word, draws[1..][k]) == word
    ensures forall k :: 0 <= k < |draws| ==> FisherYates(word, draws[k]) == word
  {
    forall k | 0 <= k < |draws| ensures FisherYates(word, draws[k]) == word {
      if k > 0 { assert draws[k] == draws[1..][k - 1]; }
    }
  }

  /** Behind a first draw that leaves the word unchanged, the first draw
      that changes the rest is the first that changes them all. */
  lemma FirstChangeAfterFixingDraw(word: string, draws: seq<seq<nat>>, w: string)
    requires ValidDraws(|word|, draws) && |draws| > 0
    requires FisherYates(word, draws[0]) == word
    requires ValidDraws(|word|, draws[1..])
    requires FirstChangingDraw(word, draws[1..], w)
    ensures FirstChangingDraw(word, draws, w)
    ensures exists k :: 0 <= k < |draws| && FisherYates(word, draws[k]) != word
  {
    var rest := draws[1..];
    var k :| 0 <= k < |rest| && w == FisherYates(word, rest[k]) && w != word
      && forall m :: 0 <= m < k ==> FisherYates(word, rest[m]) == word;
    assert draws[k + 1] == rest[k];
    forall m | 0 <= m < k + 1 ensures FisherYates(word, draws[m]) == word {
      if m > 0 { assert draws[m] == rest[m - 1]; }
    }
  }

  /** The retry loop of shuffleCurrentWord: `temp` is the array after the
      shuffles so far; each draw shuffles `temp` again until the result
      differs from `word`.  None: the supplied draws ran out while the
      loop would still be running. */
  function RetryShuffle(word: string, temp: string, draws: seq<seq<nat>>): (r: Option<string>)
    requires multiset(temp) == multiset(word)
    requires ValidDraws(|word|, draws)
    ensures r.Some? ==> IsScrambleOf(word, r.value)
    ensures |draws| == 0 ==> r.None?
    decreases |draws|
  {
    if |draws| == 0 then None
    else
      assert |temp| == |multiset(temp)| == |multiset(word)| == |word|;
      var t := FisherYates(temp, draws[0]);
      if t != word then Some(t) else RetryShuffle(word, t, draws[1..])
  }

  /** shuffleCurrentWord: shuffle a copy of `word`, and keep shuffling the
      copy while it spells `word`. */
  function ShuffleCurrentWord(word: string, draws: seq<seq<nat>>): (r: Option<string>)
    requires ValidDraws(|word|, draws)
    ensures r.Some? ==> IsScrambleOf(word, r.value)
    ensures r.None? <==> forall k :: 0 <= k < |draws| ==> FisherYates(word, draws[k]) == word
    ensures r.Some? ==> FirstChangingDraw(word, draws, r.value)
  {
    RetryFromWord(word, draws, RetryShuffle(word, word, draws));
    RetryShuffle(word, word, draws)
  }

  /** A word whose characters are all equal is left as it is by every shuffle. */
  lemma UniformWordIsFixed(word: string, rolls: seq<nat>)
    requires !HasTwoDistinct(word)
    requires ValidRolls(|word|, rolls)
    ensures FisherYates(word, rolls) == word
  {
    var r := FisherYates(word, rolls);
    forall i | 0 <= i < |r|
      ensures r[i] == word[i]
    {
      assert r[i] in multiset(word);
      var j :| 0 <= j < |word| && word[j] == r[i];
      if j < i {
        assert word[j] == word[i];
      } else if i < j {
        assert word[i] == word[j];
      }
    }
  }

  /** ...so the retry loop never ends on such a word, whatever is drawn. */
  lemma {:induction false} RetryNeverEndsOnUniformWord(word: string, draws: seq<seq<nat>>)
    requires !HasTwoDistinct(word)
    requires ValidDraws(|word|, draws)
    ensures ShuffleCurrentWord(word, draws) == None
    decreases |draws|
  {
    if |draws| > 0 {
      UniformWordIsFixed(word, draws[0]);
      assert ValidDraws(|word|, draws[1..]) by {
        forall k | 0 <= k < |draws[1..]|
          ensures ValidRolls(|word|, draws[1..][k])
        {
          assert draws[1..][k] == draws[k + 1];
        }
      }
      RetryNeverEndsOnUniformWord(word, draws[1..]);
    }
  }

  /** Swapping a position with itself changes nothing. */
  lemma SwapSelf(a: string, i: nat, j: nat)
    requires i == j < |a|
    ensures Swap(a, i, j) == a
  {
    var b := Swap(a, i, j);
    assert forall m :: 0 <= m < |a| ==> b[m] == a[m];
  }

  /** Steps whose draw is the index itself swap nothing. */
  lemma {:induction false} IdentityStepsFix(a: string, rolls: seq<nat>, k: nat)
    requires ValidRolls(|a|, rolls) && k <= |rolls|
    requires forall m :: k <= m < |rolls| ==> rolls[m] == |a| - 1 - m
    ensures FisherYatesFrom(a, rolls, k) == a
    decreases |rolls| - k
  {
    if k < |rolls| {
      IdentityStepsFix(a, rolls, k + 1);
      SwapSelf(a, |a| - 1 - k, rolls[k]);
    }
  }


  /** Rolls that swap position `p` with the last one and then keep every
      later position in place. */
  function SwapLastOnly(n: nat, p: nat): (rolls: seq<nat>)
    requires p < n - 1
    ensures ValidRolls(n, rolls) && rolls[0] == p
    ensures forall m :: 1 <= m < |rolls| ==> rolls[m] == n - 1 - m
  {
    [p] + seq(n - 2, k requires 0 <= k < n - 2 => n - 2 - k)
  }

  /** When every later roll keeps its position, only the first swap acts. */
  lemma FirstStepOnly(a: string, rolls: seq<nat>)
    requires ValidRolls(|a|, rolls) && |rolls| > 0
    requires forall m :: 1 <= m < |rolls| ==> rolls[m] == |a| - 1 - m
    ensures FisherYates(a, rolls) == Swap(a, |a| - 1, rolls[0])
  {
    IdentityStepsFix(Swap(a, |a| - 1, rolls[0]), rolls, 1);
  }

  /** Conversely, a word with two different characters has a shuffle that
      changes it: swap the last character with one that differs from it
      and leave every other step a self-swap. */
  lemma ShuffleCanChangeWord(word: string) returns (rolls: seq<nat>)
    requires HasTwoDistinct(word)
    ensures ValidRolls(|word|, rolls)
    ensures FisherYates(word, rolls) != word
  {
    var last := |word| - 1;
    var i, j :| 0 <= i < j < |word| && word[i] != word[j];
    var p := if word[i] != word[last] then i else j;
    rolls := SwapLastOnly(|word|, p);
    FirstStepOnly(word, rolls);
    assert Swap(word, last, p)[last] == word[p] != word[last];
  }


  /** The retry loop can end exactly when the word has two different
      characters. */
  lemma ShuffleTerminationIff(word: string)
    ensures HasTwoDistinct(word) <==>
      exists draws :: ValidDraws(|word|, draws) && ShuffleCurrentWord(word, draws).Some?
  {
    if HasTwoDistinct(word) {
      var rolls := ShuffleCanChangeWord(word);
      var draws := [rolls];
      assert ValidDraws(|word|, draws);
      assert ShuffleCurrentWord(word, draws).Some?;
    } else {
      forall draws | ValidDraws(|word|, draws)
        ensures ShuffleCurrentWord(word, draws).None?
      {
        RetryNeverEndsOnUniformWord(word, draws);
      }
    }
  }
}

=== FILE: transactions.dfy ===
/** The money-notes records and the add-transaction screen of
    ETS/.../mymoneynotes/MainActivity.kt: the amount field's input filter,
    the parse of its text, and the validation that builds a transaction
    when the user saves.  Amounts are reals (the source's Double, without
    rounding), dates are day numbers, and the random UUID is an `id`
    supplied by the caller. */
module Transactions {
  import opened Wrappers

  datatype FilterType = Pengeluaran | Pemasukan

  /** A spending (Pengeluaran) or income (Pemasukan) entry. */
  datatype Transaction = Transaction(
    id: nat,
    txType: FilterType,
    category: string,
    amount: real,
    date: int,
    description: Option<string>)

  // ---------------------------------------------------------------------
  // The amount field

  predicate IsDigit(c: char) {
    '0' <= c <= '9'
  }

  /** The text the amount field admits: digits and decimal points only, and
      no two positions holding a point. */
  predicate IsAmountText(s: string) {
    && (forall i :: 0 <= i < |s| ==> IsDigit(s[i]) || s[i] == '.')
    && (forall i, j :: 0 <= i < j < |s| ==> !(s[i] == '.' && s[j] == '.'))
  }

  /** `s.all { it.isDigit() || it == '.' }` */
  function AllDigitsOrPoints(s: string): (b: bool)
    ensures b <==> forall i :: 0 <= i < |s| ==> IsDigit(s[i]) || s[i] == '.'
  {
    if |s| == 0 then true
    else (IsDigit(s[0]) || s[0] == '.') && AllDigitsOrPoints(s[1..])
  }

  /** `s.count { it == c }` */
  function CountChar(s: string, c: char): nat {
    if |s| == 0 then 0
    else (if s[0] == c then 1 else 0) + CountChar(s[1..], c)
  }

  /** At most one occurrence means no two positions hold the character. */
  lemma {:induction false} CountAtMostOneIff(s: string, c: char)
    ensures CountChar(s, c) <= 1 <==> forall i, j :: 0 <= i < j < |s| ==> !(s[i] == c && s[j] == c)
  {
    if |s| > 0 {
      CountAtMostOneIff(s[1..], c);
      if s[0] == c && CountChar(s[1..], c) >= 1 {
        CountPositive(s[1..], c);
        var j :| 0 <= j < |s[1..]| && s[1..][j] == c;
        assert s[0] == c && s[j + 1] == c;
      }
      if CountChar(s, c) <= 1 {
        forall i, j | 0 <= i < j < |s|
          ensures !(s[i] == c && s[j] == c)
        {
          if i == 0 && s[0] == c && s[j] == c {
            assert s[1..][j - 1] == c;
            CountPositiveAt(s[1..], c, j - 1);
          } else if i > 0 {
            assert s[i] == s[1..][i - 1] && s[j] == s[1..][j - 1];
          }
        }
      }
    }
  }

  lemma {:induction false} CountPositive(s: string, c: char)
    requires CountChar(s, c) >= 1
    ensures exists j :: 0 <= j < |s| && s[j] == c
  {
    if s[0] != c {
      CountPositive(s[1..], c);
      var j :| 0 <= j < |s[1..]| && s[1..][j] == c;
      assert s[j + 1] == c;
    }
  }

  lemma {:induction false} CountPositiveAt(s: string, c: char, j: nat)
    requires j < |s| && s[j] == c
    ensures CountChar(s, c) >= 1
  {
    if j > 0 {
      assert s[1..][j - 1] == c;
      CountPositiveAt(s[1..], c, j - 1);
    }
  }

  /** The amount field's onValueChange: the new text replaces the old one
      only when it is amount text; otherwise the old text stays. */
  function OnAmountChange(current: string, newValue: string): (r: string)
    ensures IsAmountText(newValue) ==> r == newValue
    ensures !IsAmountText(newValue) ==> r == current
  {
    CountAtMostOneIff(newValue, '.');
    if AllDigitsOrPoints(newValue) && CountChar(newValue, '.') <= 1 then newValue else current
  }

  /** The amount field after a sequence of edits, applied in order. */
  function ApplyAmountEdits(current: string, edits: seq<string>): string
    decreases |edits|
  {
    if |edits| == 0 then current else ApplyAmountEdits(OnAmountChange(current, edits[0]), edits[1..])
  }

  /** A field that holds amount text (the empty field among them) still
      holds amount text after any sequence of edits. */
  lemma {:induction false} AmountFieldStaysAmountText(current: string, edits: seq<string>)
    requires IsAmountText(current)
    ensures IsAmountText(ApplyAmountEdits(current, edits))
    decreases |edits|
  {
    if |edits| > 0 {
      AmountFieldStaysAmountText(OnAmountChange(current, edits[0]), edits[1..]);
    }
  }

  // ---------------------------------------------------------------------
  // toDoubleOrNull on amount text

  function DigitValue(c: char): nat
    requires IsDigit(c)
  {
    c as int - '0' as int
  }

  predicate AllDigits(s: string) {
    forall i :: 0 <= i < |s| ==> IsDigit(s[i])
  }

  /** The value of a decimal digit string, read left to right. */
  function DigitsValue(s: string): nat
    requires AllDigits(s)
  {
    if |s| == 0 then 0 else DigitsValue(s[..|s| - 1]) * 10 + DigitValue(s[|s| - 1])
  }

  function Pow10(n: nat): (r: nat)
    ensures r >= 1
  {
    if n == 0 then 1 else 10 * Pow10(n - 1)
  }

  /** The position of the first decimal point, or |s| if there is none. */
  function PointIndex(s: string): (p: nat)
    ensures p <= |s|
    ensures p < |s| ==> s[p] == '.'
    ensures forall i :: 0 <= i < p ==> s[i] != '.'
  {
    if |s| == 0 then 0
    else if s[0] == '.' then 0
    else 1 + PointIndex(s[1..])
  }

  predicate HasDigit(s: string) {
    exists i :: 0 <= i < |s| && IsDigit(s[i])
  }

  predicate HasNonZeroDigit(s: string) {
    exists i :: 0 <= i < |s| && '1' <= s[i] <= '9'
  }

  /** The digits before the decimal point. */
  function WholePart(s: string): (r: string)
    requires IsAmountText(s)
    ensures AllDigits(r)
  {
    s[..PointIndex(s)]
  }

  /** The digits after the decimal point; empty when there is no point. */
  function FracPart(s: string): (r: string)
    requires IsAmountText(s)
    ensures AllDigits(r)
  {
    var p := PointIndex(s);
    if p < |s| then
      assert forall i :: p + 1 <= i < |s| ==> IsDigit(s[i]);
      s[p + 1..]
    else []
  }

  lemma SplitHasDigit(s: string)
    requires IsAmountText(s)
    ensures HasDigit(s) <==> |WholePart(s)| + |FracPart(s)| > 0
  {
    var p := PointIndex(s);
    if |WholePart(s)| > 0 {
      assert IsDigit(s[0]);
    } else if |FracPart(s)| > 0 {
      assert IsDigit(s[p + 1]);
    }
  }

  lemma SplitHasNonZeroDigit(s: string)
    requires IsAmountText(s)
    ensures HasNonZeroDigit(s) <==> HasNonZeroDigit(WholePart(s)) || HasNonZeroDigit(FracPart(s))
  {
    var p := PointIndex(s);
    var whole, frac := WholePart(s), FracPart(s);
    if HasNonZeroDigit(s) {
      var i :| 0 <= i < |s| && '1' <= s[i] <= '9';
      if i < p { assert whole[i] == s[i]; }
      else { assert i != p; assert frac[i - p - 1] == s[i]; }
    }
    if HasNonZeroDigit(whole) {
      var i :| 0 <= i < |whole| && '1' <= whole[i] <= '9';
      assert s[i] == whole[i];
    }
    if HasNonZeroDigit(frac) {
      var i :| 0 <= i < |frac| && '1' <= frac[i] <= '9';
      assert s[p + 1 + i] == frac[i];
    }
  }

  /** `toDoubleOrNull` on the text the amount field can hold: digits with
      at most one point parse when they contain at least one digit ("5.",
      ".5"); "" and "." do not.  Text outside that language never reaches
      the parse and is not given a value here. */
  function ParseAmount(s: string): (r: Option<real>)
    ensures r.Some? <==> IsAmountText(s) && HasDigit(s)
    ensures r.Some? ==> r.value >= 0.0
  {
    if !IsAmountText(s) then None
    else
      var whole, frac := WholePart(s), FracPart(s);
      SplitHasDigit(s);
      if |whole| + |frac| == 0 then None
      else Some(DigitsValue(whole) as real + DigitsValue(frac) as real / Pow10(|frac|) as real)
  }

  /** Reading a + b is reading a, shifting it left by |b| places, and
      adding the value of b. */
  lemma {:induction false} DigitsValueAppend(a: string, b: string)
    requires AllDigits(a) && AllDigits(b)
    ensures AllDigits(a + b)
    ensures DigitsValue(a + b) == DigitsValue(a) * Pow10(|b|) + DigitsValue(b)
    decreases |b|
  {
    if |b| > 0 {
      var init, last := b[..|b| - 1], b[|b| - 1];
      assert (a + b)[..|a + b| - 1] == a + init;
      assert (a + b)[|a + b| - 1] == last;
      DigitsValueAppend(a, init);
      ShiftDigit(DigitsValue(a), Pow10(|init|), DigitsValue(init), DigitValue(last));
    } else {
      assert a + b == a;
    }
  }

  /** One more digit d after x * p + y multiplies the shift by ten. */
  lemma ShiftDigit(x: nat, p: nat, y: nat, d: nat)
    ensures (x * p + y) * 10 + d == x * (10 * p) + (y * 10 + d)
  {
  }

  /** v, scaled up by p, is the whole number n. */
  predicate ScalesTo(v: real, p: nat, n: nat) {
    v * p as real == n as real
  }

  /** Scaling w + f/p by p gives the integer w * p + f. */
  lemma ScaleFraction(w: nat, f: nat, p: nat, v: real, n: nat)
    requires p >= 1
    requires v == w as real + f as real / p as real
    requires n == w * p + f
    ensures ScalesTo(v, p, n)
  {
    assert (w * p) as real == w as real * p as real;
    assert f as real / p as real * p as real == f as real;
  }

  /** The parsed amount is the digit string with the point removed, divided
      by ten to the number of digits after the point. */
  lemma ParseAmountValue(s: string, v: real)
    requires ParseAmount(s) == Some(v)
    ensures AllDigits(WholePart(s) + FracPart(s))
    ensures ScalesTo(v, Pow10(|FracPart(s)|), DigitsValue(WholePart(s) + FracPart(s)))
  {
    var whole, frac := WholePart(s), FracPart(s);
    DigitsValueAppend(whole, frac);
    assert v == DigitsValue(whole) as real + DigitsValue(frac) as real / Pow10(|frac|) as real;
    ScaleFraction(DigitsValue(whole), DigitsValue(frac), Pow10(|frac|), v, DigitsValue(whole + frac));
  }

  /** A digit string has a positive value exactly when one of its digits is
      not zero. */
  lemma {:induction false} DigitsValuePositiveIff(s: string)
    requires AllDigits(s)
    ensures DigitsValue(s) > 0 <==> HasNonZeroDigit(s)
  {
    if |s| > 0 {
      var init := s[..|s| - 1];
      DigitsValuePositiveIff(init);
      if HasNonZeroDigit(init) {
        var i :| 0 <= i < |init| && '1' <= init[i] <= '9';
        assert s[i] == init[i];
      }
      if HasNonZeroDigit(s) {
        var i :| 0 <= i < |s| && '1' <= s[i] <= '9';
        if i < |s| - 1 { assert init[i] == s[i]; }
      }
    }
  }

  /** A fraction with a positive denominator is positive exactly when its
      numerator is. */
  lemma FractionSign(n: nat, d: nat)
    requires d >= 1
    ensures n as real / d as real >= 0.0
    ensures n as real / d as real > 0.0 <==> n > 0
  {
  }

  /** A parsed amount is positive exactly when the text has a non-zero digit. */
  lemma ParsedAmountPositiveIff(s: string)
    requires ParseAmount(s).Some?
    ensures ParseAmount(s).value > 0.0 <==> HasNonZeroDigit(s)
  {
    var whole, frac := WholePart(s), FracPart(s);
    DigitsValuePositiveIff(whole);
    DigitsValuePositiveIff(frac);
    SplitHasNonZeroDigit(s);
    FractionSign(DigitsValue(frac), Pow10(|frac|));
  }

  // ---------------------------------------------------------------------
  // Saving

  /** Kotlin's Char.isWhitespace on the JVM: the Unicode space, line and
      paragraph separators and the ASCII control whitespace. */
  predicate IsWhitespace(c: char) {
    || c == '\t' || c == '\n' || c == '\U{B}' || c == '\U{C}' || c == '\r'
    || ('\U{1C}' <= c <= '\U{1F}')
    || c == ' ' || c == '\U{A0}' || c == '\U{1680}'
    || ('\U{2000}' <= c <= '\U{200A}')
    || c == '\U{2028}' || c == '\U{2029}' || c == '\U{202F}' || c == '\U{205F}' || c == '\U{3000}'
  }

  /** Kotlin's `isBlank()`: every character is whitespace, so "" is blank. */
  function IsBlank(s: string): (b: bool)
    ensures b <==> forall i :: 0 <= i < |s| ==> IsWhitespace(s[i])
  {
    if |s| == 0 then true else IsWhitespace(s[0]) && IsBlank(s[1..])
  }

  datatype SaveError = InvalidAmount | MissingCategory

  /** The Save button: check the amount first, then the category, then
      build the transaction.  A blank description is stored as absent. */
  function SaveTransaction(id: nat, selectedType: FilterType, selectedCategory: string,
                           amountString: string, selectedDate: int, description: string)
    : (r: Result<Transaction, SaveError>)
    ensures r == Failure(InvalidAmount) <==> ParseAmount(amountString).None? || ParseAmount(amountString).value <= 0.0
    ensures r == Failure(MissingCategory) <==>
      ParseAmount(amountString).Some? && ParseAmount(amountString).value > 0.0 && IsBlank(selectedCategory)
    ensures r.Success? ==>
      && r.value.amount > 0.0
      && Some(r.value.amount) == ParseAmount(amountString)
      && r.value.id == id && r.value.txType == selectedType && r.value.category == selectedCategory
      && r.value.date == selectedDate
      && (r.value.description.None? <==> IsBlank(description))
      && (r.value.description.Some? ==> r.value.description.value == description)
  {
    var amount := ParseAmount(amountString);
    if amount.None? || amount.value <= 0.0 then Failure(InvalidAmount)
    else if IsBlank(selectedCategory) then Failure(MissingCategory)
    else Success(Transaction(id, selectedType, selectedCategory, amount.value, selectedDate,
                             if IsBlank(description) then None else Some(description)))
  }

  /** For text the amount field can hold, saving succeeds exactly when the
      text has a non-zero digit and a category is chosen. */
  lemma SaveSucceedsIff(id: nat, selectedType: FilterType, selectedCategory: string,
                        amountString: string, selectedDate: int, description: string)
    requires IsAmountText(amountString)
    ensures SaveTransaction(id, selectedType, selectedCategory, amountString, selectedDate, description).Success?
      <==> HasNonZeroDigit(amountString) && !IsBlank(selectedCategory)
  {
    if ParseAmount(amountString).Some? {
      ParsedAmountPositiveIff(amountString);
    }
  }
}

=== FILE: unscramble.dfy ===
/** The word-unscramble game of GameViewModel.kt.  The source keeps the
    current word and the set of used words in file-level mutable variables
    and the UI state in a state flow; here all of it is one immutable
    `Game` value and every operation is a pure function from the old game
    to the new one.  The game's constants and word list live in a data file
    that is not part of this model, so they are a `WordsData` parameter.
    The two random choices made by pickRandomWordAndShuffle (which unused
    word, which scramble) arrive as a `Draw`; module Shuffle and
    PickRandomWord model the random procedures that produce one. */
module Unscramble {
  import opened Wrappers
  import opened Shuffle

  // ---------------------------------------------------------------------
  // Kotlin Int arithmetic

  const INT32_MIN: int := -0x8000_0000
  const INT32_MAX: int := 0x7FFF_FFFF

  predicate IsInt32(x: int) {
    INT32_MIN <= x <= INT32_MAX
  }

  /** The two's-complement wrap-around of Kotlin `Int` addition. */
  function Wrap32(x: int): (r: int)
    ensures IsInt32(r)
    ensures IsInt32(x) ==> r == x
    ensures (r - x) % 0x1_0000_0000 == 0
  {
    (x - INT32_MIN) % 0x1_0000_0000 + INT32_MIN
  }

  // ---------------------------------------------------------------------
  // String.equals(other, ignoreCase = true), with the ASCII case mapping

  function UpperChar(c: char): char {
    if 'a' <= c <= 'z' then (c as int - 32) as char else c
  }

  function LowerChar(c: char): char {
    if 'A' <= c <= 'Z' then (c as int + 32) as char else c
  }

  /** Kotlin's Char.equals(other, ignoreCase = true). */
  predicate CharEqualsIgnoreCase(x: char, y: char) {
    || x == y
    || UpperChar(x) == UpperChar(y)
    || LowerChar(UpperChar(x)) == LowerChar(UpperChar(y))
  }

  predicate EqualsIgnoreCase(a: string, b: string) {
    |a| == |b| && forall i :: 0 <= i < |a| ==> CharEqualsIgnoreCase(a[i], b[i])
  }

  function LowerString(s: string): (r: string)
    ensures |r| == |s|
  {
    seq(|s|, i requires 0 <= i < |s| => LowerChar(s[i]))
  }

  /** Two strings are equal ignoring case exactly when their lower-case
      forms are equal. */
  lemma EqualsIgnoreCaseIffSameLowerCase(a: string, b: string)
    ensures EqualsIgnoreCase(a, b) <==> LowerString(a) == LowerString(b)
  {
    if EqualsIgnoreCase(a, b) {
      forall i | 0 <= i < |a|
        ensures LowerString(a)[i] == LowerString(b)[i]
      {
        assert CharEqualsIgnoreCase(a[i], b[i]);
      }
    }
    if LowerString(a) == LowerString(b) {
      forall i | 0 <= i < |a|
        ensures CharEqualsIgnoreCase(a[i], b[i])
      {
        assert LowerString(a)[i] == LowerString(b)[i];
      }
    }
  }

  // ---------------------------------------------------------------------
  // Game data and state

  /** The contents of the game's data file: the word list and the three
      constants the view model imports. */
  datatype WordsData = WordsData(
    allWords: seq<string>,
    maxNoOfWords: int,
    scoreIncrease: int,
    shufflePenalty: int)

  /** The immutable UI state record. */
  datatype GameUiState = GameUiState(
    currentScrambledWord: string,
    currentWordCount: int,
    score: int,
    isGuessedWordWrong: bool,
    isGameOver: bool)

  /** GameUiState() with every field at its declared default. */
  const DefaultUiState: GameUiState := GameUiState("", 1, 0, false, false)

  /** Everything the view model and its file-level variables hold. */
  datatype Game = Game(
    ui: GameUiState,
    currentWord: string,
    usedWords: set<string>,
    userGuess: string)

  /** The outcome of the two random choices of one pickRandomWordAndShuffle. */
  datatype Draw = Draw(word: string, scrambled: string)

  /** A draw pickRandomWordAndShuffle can make when `used` holds the used
      words: an unused word of the list, and a scramble of it. */
  predicate LegalDraw(data: WordsData, used: set<string>, d: Draw) {
    && d.word in data.allWords
    && d.word !in used
    && IsScrambleOf(d.word, d.scrambled)
  }

  // ---------------------------------------------------------------------
  // The random procedures

  /** `w` is the word at the first drawn index whose word is unused. */
  ghost predicate FirstUnusedDraw(allWords: seq<string>, used: set<string>, picks: seq<nat>, w: string)
    requires forall k :: 0 <= k < |picks| ==> picks[k] < |allWords|
  {
    exists k :: 0 <= k < |picks| && w == allWords[picks[k]] && w !in used
      && forall m :: 0 <= m < k ==> allWords[picks[m]] in used
  }

  /** The recursion of pickRandomWordAndShuffle: `allWords.random()` is
      drawn again while it yields a used word.  `picks` are the indices the
      random source returns; None: they ran out while the recursion would
      still be going. */
  function PickRandomWord(allWords: seq<string>, used: set<string>, picks: seq<nat>): (r: Option<string>)
    requires forall k :: 0 <= k < |picks| ==> picks[k] < |allWords|
    ensures r.Some? ==> r.value in allWords && r.value !in used
    ensures r.None? <==> forall k :: 0 <= k < |picks| ==> allWords[picks[k]] in used
    ensures r.Some? ==> FirstUnusedDraw(allWords, used, picks, r.value)
  {
    if |picks| == 0 then None
    else if allWords[picks[0]] in used then
      var r := PickRandomWord(allWords, used, picks[1..]);
      assert forall k :: 1 <= k < |picks| ==> picks[k] == picks[1..][k - 1];
      assert r.Some? ==> FirstUnusedDraw(allWords, used, picks, r.value) by {
        if r.Some? {
          var k :| 0 <= k < |picks[1..]| && r.value == allWords[picks[1..][k]]
            && forall m :: 0 <= m < k ==> allWords[picks[1..][m]] in used;
          assert forall m :: 0 <= m < k + 1 ==> allWords[picks[m]] in used;
        }
      }
      r
    else Some(allWords[picks[0]])
  }

  /** The recursion can end exactly when some word of the list is unused. */
  lemma PickTerminationIff(allWords: seq<string>, used: set<string>)
    ensures (exists w :: w in allWords && w !in used) <==>
      exists picks :: (forall k :: 0 <= k < |picks| ==> picks[k] < |allWords|)
                      && PickRandomWord(allWords, used, picks).Some?
  {
    if w :| w in allWords && w !in used {
      var i :| 0 <= i < |allWords| && allWords[i] == w;
      assert PickRandomWord(allWords, used, [i]).Some?;
    }
  }

  /** A word picked by PickRandomWord and scrambled by ShuffleCurrentWord
      is a legal draw. */
  lemma RandomProceduresYieldLegalDraw(data: WordsData, used: set<string>,
                                       picks: seq<nat>, draws: seq<seq<nat>>)
    requires forall k :: 0 <= k < |picks| ==> picks[k] < |data.allWords|
    requires PickRandomWord(data.allWords, used, picks).Some?
    requires ValidDraws(|PickRandomWord(data.allWords, used, picks).value|, draws)
    requires ShuffleCurrentWord(PickRandomWord(data.allWords, used, picks).value, draws).Some?
    ensures LegalDraw(data, used,
      Draw(PickRandomWord(data.allWords, used, picks).value,
           ShuffleCurrentWord(PickRandomWord(data.allWords, used, picks).value, draws).value))
  {
  }

  // ---------------------------------------------------------------------
  // The operations

  /** What pickRandomWordAndShuffle leaves behind: the new current word,
      the grown used-word set, and the scramble it returns. */
  datatype Picked = Picked(currentWord: string, usedWords: set<string>, scrambled: string)

  function PickRandomWordAndShuffle(data: WordsData, used: set<string>, d: Draw): (p: Picked)
    requires LegalDraw(data, used, d)
    ensures p.currentWord in data.allWords && p.currentWord !in used
    ensures p.usedWords == used + {p.currentWord}
    ensures |p.usedWords| == |used| + 1
    ensures IsScrambleOf(p.currentWord, p.scrambled)
  {
    Picked(d.word, used + {d.word}, d.scrambled)
  }

  /** resetGame: forget the used words, then start over on a fresh word. */
  function ResetGame(data: WordsData, g: Game, d: Draw): (g': Game)
    requires LegalDraw(data, {}, d)
    ensures g'.usedWords == {g'.currentWord} && |g'.usedWords| == 1
    ensures g'.currentWord in data.allWords
    ensures g'.ui.currentWordCount == 1 && g'.ui.score == 0
    ensures !g'.ui.isGuessedWordWrong && !g'.ui.isGameOver
    ensures IsScrambleOf(g'.currentWord, g'.ui.currentScrambledWord)
    ensures g'.userGuess == g.userGuess
  {
    var p := PickRandomWordAndShuffle(data, {}, d);
    Game(DefaultUiState.(currentScrambledWord := p.scrambled), p.currentWord, p.usedWords, g.userGuess)
  }

  /** The view model's constructor: empty guess, then resetGame. */
  function NewGame(data: WordsData, d: Draw): (g: Game)
    requires LegalDraw(data, {}, d)
    ensures g.userGuess == "" && g.usedWords == {g.currentWord}
    ensures g.ui.currentWordCount == 1 && g.ui.score == 0
    ensures !g.ui.isGuessedWordWrong && !g.ui.isGameOver
  {
    ResetGame(data, Game(DefaultUiState, "", {}, ""), d)
  }

  function UpdateUserGuess(g: Game, guessedWord: string): (g': Game)
    ensures g'.userGuess == guessedWord
    ensures g'.ui == g.ui && g'.currentWord == g.currentWord && g'.usedWords == g.usedWords
  {
    g.(userGuess := guessedWord)
  }

  function UpdateScore(g: Game, updatedScore: int): (g': Game)
    ensures g'.ui.score == updatedScore
    ensures g'.ui.(score := g.ui.score) == g.ui
    ensures g'.currentWord == g.currentWord && g'.usedWords == g.usedWords && g'.userGuess == g.userGuess
  {
    g.(ui := g.ui.(score := updatedScore))
  }

  /** Whether the used words have reached the game length. */
  predicate AtLastWord(data: WordsData, g: Game) {
    |g.usedWords| == data.maxNoOfWords
  }

  /** updateGameState: end the game when the last word was reached,
      otherwise move on to a fresh word.  The draw is used only in the
      second case. */
  function UpdateGameState(data: WordsData, g: Game, updatedScore: int, d: Draw): (g': Game)
    requires !AtLastWord(data, g) ==> LegalDraw(data, g.usedWords, d)
    ensures g'.ui.score == updatedScore && !g'.ui.isGuessedWordWrong
    ensures g'.userGuess == g.userGuess
    ensures AtLastWord(data, g) ==>
      && g'.ui.isGameOver
      && g'.ui.currentWordCount == g.ui.currentWordCount
      && g'.ui.currentScrambledWord == g.ui.currentScrambledWord
      && g'.currentWord == g.currentWord
      && g'.usedWords == g.usedWords
    ensures !AtLastWord(data, g) ==>
      && g'.ui.isGameOver == g.ui.isGameOver
      && g'.ui.currentWordCount == Wrap32(g.ui.currentWordCount + 1)
      && g'.currentWord in data.allWords
      && g'.currentWord !in g.usedWords
      && g'.usedWords == g.usedWords + {g'.currentWord}
      && |g'.usedWords| == |g.usedWords| + 1
      && IsScrambleOf(g'.currentWord, g'.ui.currentScrambledWord)
  {
    if AtLastWord(data, g) then
      g.(ui := g.ui.(isGuessedWordWrong := false, score := updatedScore, isGameOver := true))
    else
      var p := PickRandomWordAndShuffle(data, g.usedWords, d);
      Game(g.ui.(isGuessedWordWrong := false,
                 currentScrambledWord := p.scrambled,
                 score := updatedScore,
                 currentWordCount := Wrap32(g.ui.currentWordCount + 1)),
           p.currentWord, p.usedWords, g.userGuess)
  }

  /** skipWord: advance without changing the score, then clear the guess. */
  function SkipWord(data: WordsData, g: Game, d: Draw): (g': Game)
    requires !AtLastWord(data, g) ==> LegalDraw(data, g.usedWords, d)
    ensures g'.ui.score == g.ui.score && g'.userGuess == "" && !g'.ui.isGuessedWordWrong
    ensures AtLastWord(data, g) ==>
      && g'.ui.isGameOver
      && g'.ui.currentWordCount == g.ui.currentWordCount
      && g'.ui.currentScrambledWord == g.ui.currentScrambledWord
      && g'.currentWord == g.currentWord
      && g'.usedWords == g.usedWords
    ensures !AtLastWord(data, g) ==>
      && g'.ui.isGameOver == g.ui.isGameOver
      && g'.ui.currentWordCount == Wrap32(g.ui.currentWordCount + 1)
      && g'.currentWord in data.allWords
      && g'.currentWord !in g.usedWords
      && g'.usedWords == g.usedWords + {g'.currentWord}
      && |g'.usedWords| == |g.usedWords| + 1
      && IsScrambleOf(g'.currentWord, g'.ui.currentScrambledWord)
  {
    UpdateUserGuess(UpdateGameState(data, g, g.ui.score, d), "")
  }

  /** Whether the current guess matches the current word. */
  predicate GuessIsCorrect(g: Game) {
    EqualsIgnoreCase(g.userGuess, g.currentWord)
  }

  /** checkUserGuess: a correct guess earns the bonus and advances; a wrong
      one only raises the wrong-guess flag.  The guess is cleared either way. */
  function CheckUserGuess(data: WordsData, g: Game, d: Draw): (g': Game)
    requires GuessIsCorrect(g) && !AtLastWord(data, g) ==> LegalDraw(data, g.usedWords, d)
    ensures g'.userGuess == ""
    ensures GuessIsCorrect(g) ==>
      && g'.ui.score == Wrap32(g.ui.score + data.scoreIncrease)
      && !g'.ui.isGuessedWordWrong
    ensures GuessIsCorrect(g) && IsInt32(g.ui.score + data.scoreIncrease) ==>
      g'.ui.score == g.ui.score + data.scoreIncrease
    ensures GuessIsCorrect(g) && AtLastWord(data, g) ==>
      && g'.ui.isGameOver
      && g'.ui.currentWordCount == g.ui.currentWordCount
      && g'.ui.currentScrambledWord == g.ui.currentScrambledWord
      && g'.currentWord == g.currentWord
      && g'.usedWords == g.usedWords
    ensures GuessIsCorrect(g) && !AtLastWord(data, g) ==>
      && g'.ui.isGameOver == g.ui.isGameOver
      && g'.ui.currentWordCount == Wrap32(g.ui.currentWordCount + 1)
      && g'.currentWord in data.allWords
      && g'.currentWord !in g.usedWords
      && g'.usedWords == g.usedWords + {g'.currentWord}
      && IsScrambleOf(g'.currentWord, g'.ui.currentScrambledWord)
    ensures !GuessIsCorrect(g) ==>
      && g'.ui == g.ui.(isGuessedWordWrong := true)
      && g'.currentWord == g.currentWord
      && g'.usedWords == g.usedWords
  {
    if GuessIsCorrect(g) then
      UpdateUserGuess(UpdateGameState(data, g, Wrap32(g.ui.score + data.scoreIncrease), d), "")
    else
      UpdateUserGuess(g.(ui := g.ui.(isGuessedWordWrong := true)), "")
  }

  /** reshuffle: show a new scramble of the current word and pay the
      penalty.  There is no lower bound on the score. */
  function Reshuffle(data: WordsData, g: Game, scrambled: string): (g': Game)
    requires IsScrambleOf(g.currentWord, scrambled)
    ensures IsScrambleOf(g'.currentWord, g'.ui.currentScrambledWord)
    ensures g'.ui.score == Wrap32(g.ui.score - data.shufflePenalty)
    ensures IsInt32(g.ui.score - data.shufflePenalty) ==> g'.ui.score == g.ui.score - data.shufflePenalty
    ensures g'.ui.currentWordCount == g.ui.currentWordCount
    ensures g'.ui.isGuessedWordWrong == g.ui.isGuessedWordWrong && g'.ui.isGameOver == g.ui.isGameOver
    ensures g'.currentWord == g.currentWord && g'.usedWords == g.usedWords && g'.userGuess == g.userGuess
  {
    var shuffled := g.(ui := g.ui.(currentScrambledWord := scrambled));
    UpdateScore(shuffled, Wrap32(shuffled.ui.score - data.shufflePenalty))
  }

  /** skipWord moves on exactly as a correct guess does, without the bonus. */
  lemma SkipIsCorrectGuessWithoutBonus(data: WordsData, g: Game, d: Draw)
    requires GuessIsCorrect(g)
    requires !AtLastWord(data, g) ==> LegalDraw(data, g.usedWords, d)
    ensures var s := SkipWord(data, g, d);
      CheckUserGuess(data, g, d) == s.(ui := s.ui.(score := Wrap32(g.ui.score + data.scoreIncrease)))
  {
  }
}

=== FILE: wrappers.dfy ===
/** The optional-value and success-or-error types shared by the modules of this project. */
module Wrappers {

  /** An optional value: Kotlin's nullable types, and the outcome of a
      random process whose supplied random stream ran out. */
  datatype Option<+T> = None | Some(value: T)

  /** A value or an error, for operations that reject their input. */
  datatype Result<+R, +E> = Success(value: R) | Failure(error: E)
}
